=== FILE: README.md ===
# AirGradient relay — a Dafny model

`relay-airgradient.py` polls an AirGradient air-quality monitor on a fixed
cadence. It renames a subset of the sensor fields and averages each window
of samples to two decimals. It then hands one InfluxDB line-protocol record
per window with at least one successful fetch to `post_influx`, which is
meant to pass it through a bounded FIFO post queue. As written,
`post_influx` never queues or sends it (see Findings). This project models the
deterministic core of that program as pure Dafny functions over immutable
data, and proves what the program promises about it.

What is modelled, module by module:

- `FieldMap` models `convert_data`: the fixed translation table, and the
  conversion of a raw reading (a `map`) into an ordered dictionary.
- `Dicts` provides ordered dictionaries as association lists, with `Keys`
  (`d.keys()`) and `Get` (`d[k]` / `k in d`).
- `Averaging` models the averaging block of `run`. It covers the column of
  values present for a key, their mean, and `round(x, 2)` on exact reals,
  rounding half to even.
- `LineProtocol` models the `post_data` string built by `post_influx`, with
  a reader for it.
- `PostQueue` models `process_post_queue` and `post_influx`. It holds both
  the literal `post_influx` and a corrected one, and a relay over many
  calls.
- `RunLoop` models `run` as a state machine over integer seconds:
  - the sample loop and its (dead) slip branch;
  - the window start and centre, and the centre's Unix timestamp;
  - the averaged post;
  - the hand-off to the queue.
- `Args` models the argument loop and validation of `main`.
- `Strings` and `Wrappers` supply helpers: split/join, digit strings,
  integer text, `Option` and `Result`.

The effects are inputs:
- Each sample is a `Tick`: the naive local clock reading and the fetched
  reading, or `None` when fetching or converting the reading raised
  (the `try` covers both `get_airgradient` and `convert_data`).
- The host's time zone is the `utcOffsetAt` field of `RunLoop.Cadence`: the
  offset from UTC that `.timestamp()` subtracts at a given local wall-clock
  second, daylight-saving switches included.
- Each flush receives the outcomes of its send attempts as a `seq<bool>`.
  An attempt past the end of that list counts as a failure.
- The token is an `Option<string>` standing for `os.environ.get`.
- `sys.exit` becomes a `Failure` result.
- `str()` of a float is a `render` function parameter.

## Model

| member | source | states |
|---|---|---|
| FieldMap.ConvertData | relay-airgradient.py:26-45 | the converted reading never has more entries than the table has rows |
| FieldMap.ConvertDataSelectsRows | relay-airgradient.py:27-45 | the converted reading lists exactly the table rows whose raw field the reading has. They come in table order, each under its canonical name with the raw value unchanged, so unknown raw fields never appear |
| FieldMap.ConvertDataLookup | relay-airgradient.py:40-45 | the result has distinct keys; looking up the canonical name of a present field gives the raw value; the canonical name of an absent field is not a key (omitted, not zero-filled) |
| FieldMap.ConvertLookup | relay-airgradient.py:41-43 | the same lookup facts hold for any table whose raw and canonical columns are each free of repeats |
| FieldMap.ConvertDataExample | relay-airgradient.py:26-45 | a reading with `rco2`, `atmp` and an unmapped `wifi` converts to `co2` then `temperature_c`, with nothing else |
| Dicts.Get | relay-airgradient.py:183 | `d[k]` is defined exactly when `k in d.keys()` |
| Dicts.GetDistinct | relay-airgradient.py:183 | with distinct keys, looking up an entry's key returns that entry's value |
| Averaging.Column | relay-airgradient.py:183 | the list of values for a key is no longer than the sample list, and not empty when the first sample has the key |
| Averaging.ColumnExcludesMissing | relay-airgradient.py:183 | samples missing the key add nothing to the sum and are not counted in the length |
| Averaging.MeanBetween | relay-airgradient.py:184 | `sum(values) / len(values)` lies between the least and greatest value |
| Averaging.Round2 | relay-airgradient.py:184 | `round(x, 2)` is a whole number of hundredths within half a hundredth of `x` |
| Averaging.AverageFrom | relay-airgradient.py:182-184 | one averaged entry for each key of the first sample from position `from` on, in that sample's order; `AverageFromValues` gives each value as the rounded mean of that key's column |
| Averaging.AverageSamples | relay-airgradient.py:181-184 | the averaged keys are exactly the first sample's keys, in its order. Each value is a whole number of hundredths within half a hundredth of the mean over the samples that have the key, hence of their range |
| Averaging.AverageIsPresentMean | relay-airgradient.py:182-184 | for each key the count of samples having it is at least one, so there is no division by zero; the value is the rounded sum over those samples divided by that count |
| Averaging.LaterKeysDropped | relay-airgradient.py:182 | a key missing from the first sample is missing from the average even when later samples carry it |
| LineProtocol.Payload | relay-airgradient.py:123-125 | the record starts with the `airquality` measurement and its `location` tag and ends with the nine zeros that scale seconds to nanoseconds; `PayloadRoundTrip` reads the whole record back |
| LineProtocol.PayloadRoundTrip | relay-airgradient.py:123-125 | reading `post_data` back yields the `airquality` record's location tag, the fields in the averaged map's order, and the timestamp scaled to nanoseconds |
| LineProtocol.ParseFieldsRoundTrip | relay-airgradient.py:124 | the `k=v` texts parse back into the same fields (splitting the comma-joined set into those texts is `FieldSetSplits`) |
| LineProtocol.FieldSetSplits | relay-airgradient.py:124 | the comma-joined field set has no space, is empty exactly when there are no fields, and splits on commas back into the `k=v` texts |
| Strings.NanosRoundTrip | relay-airgradient.py:125 | `str(ts)` followed by nine zeros is an integer text whose value is `ts` times 10^9 |
| Strings.SplitJoin | relay-airgradient.py:226 | `split` inverts joining parts that do not contain the separator |
| Strings.Split | relay-airgradient.py:226 | `split` yields at least one part, no part contains the separator, and joining the parts restores the argument |
| Strings.NatToStringRoundTrip | relay-airgradient.py:125 | the decimal text `str()` gives a natural number reads back as that number |
| PostQueue.ProcessPostQueue | relay-airgradient.py:99-113 | records leave only from the head, in order: what was sent followed by what remains is the original queue. Every sent record's attempt succeeded; the pass returns normally exactly when the queue is empty; otherwise it stopped at a failed attempt on the record now at the head |
| PostQueue.FlushResumes | relay-airgradient.py:99-113 | a second pass after a failed one resumes at the record that failed; together the passes send a prefix of the queue in order |
| PostQueue.PostInfluxAsWritten | relay-airgradient.py:128-135 | below the limit the literal `post_influx` leaves the queue unchanged and sends nothing; at the limit it evicts the head and appends the record before draining; the limit is never exceeded |
| PostQueue.AsWrittenNeverSends | relay-airgradient.py:128-135 | from any queue below the limit, any number of literal `post_influx` calls leave the queue unchanged and send nothing |
| PostQueue.AsWrittenDropsFirstRecord | relay-airgradient.py:128-135 | on the empty queue the literal call loses the record even when every send would succeed, while the corrected one sends it |
| PostQueue.PostInfluxIntended | relay-airgradient.py:128-135 | the corrected call appends the record (after evicting the head at the limit) and drains; the record is last in line; the limit is kept |
| PostQueue.EvictionShiftsHead | relay-airgradient.py:128-134 | at the limit the old second record becomes the first in line and the new record the last |
| PostQueue.IntendedStaysBounded | relay-airgradient.py:128-135 | over any number of corrected calls the queue never exceeds `POST_QUEUE_LIMIT` |
| PostQueue.IntendedKeepsOrder | relay-airgradient.py:99-135 | while the limit is not reached, corrected calls lose and reorder nothing: everything sent, then everything queued, is the old queue followed by the posted records |
| RunLoop.SleepTime | relay-airgradient.py:155 | the sleep time is never negative, so the slip branch can never be taken |
| RunLoop.SampleStep | relay-airgradient.py:154-173 | no contract of its own; `SampleStepSpec` states what one iteration does |
| RunLoop.SampleStepSpec | relay-airgradient.py:154-173 | one iteration advances the target time by exactly one period, never counts a slip, and appends the converted reading only when the fetch succeeded |
| RunLoop.Collect | relay-airgradient.py:152-173 | no contract of its own; `CollectCadence` and `CollectSamples` state what the sample loop does to the target time and the samples |
| RunLoop.CollectCadence | relay-airgradient.py:150-173 | over a window the target time advances by the number of samples times the period, and the target is never reset |
| RunLoop.CollectSamples | relay-airgradient.py:165-170 | the samples of a window are the converted successful fetches in fetch order |
| RunLoop.Fetched | relay-airgradient.py:165-168 | there are never more samples than iterations |
| RunLoop.FetchedNonEmpty | relay-airgradient.py:165-176 | the sample list is non-empty exactly when some fetch succeeded |
| RunLoop.CenterTimestamp | relay-airgradient.py:178-180 | the stamp is the naive window centre, minus the zone's UTC offset at that wall-clock second (the `.timestamp()` at line 123), truncated toward zero |
| RunLoop.StampSpacing | relay-airgradient.py:123 | with an even window length, the stamps of two windows lie apart by the distance between their naive starts less the change in UTC offset, so a daylight-saving switch shifts later stamps by the switch |
| RunLoop.TruncHalf | relay-airgradient.py:123 | `int()` truncates toward zero: half an odd negative total is rounded up, not down |
| RunLoop.RunWindow | relay-airgradient.py:148-196 | a window moves the target time on by `num_samples * period_sec` |
| RunLoop.WindowPost | relay-airgradient.py:176-184 | a window posts exactly when some fetch succeeded. The post is stamped with `CenterTimestamp`, the truncated UTC time of the window centre, and carries the average of the converted fetches, keyed by the first successful reading's fields |
| RunLoop.RunWindowsAdvance | relay-airgradient.py:146-173 | after k windows the target time is the start plus k window lengths |
| RunLoop.WindowSchedule | relay-airgradient.py:146-173 | window k behaves as a window started at `t0 + k * num_samples * period_sec` |
| RunLoop.Loop | relay-airgradient.py:148-196 | no contract of its own; `LoopAdvances`, `LoopIsRelay` and `RunAsWrittenNeverSends` state what the outer loop does |
| RunLoop.LoopWindow | relay-airgradient.py:148-196 | one pass of the outer loop moves the target time on by one window |
| RunLoop.LoopAdvances | relay-airgradient.py:148-196 | after any number of passes the target time has advanced by that many window lengths, whatever the queue did |
| RunLoop.LoopIsRelay | relay-airgradient.py:186-194 | the loop hands exactly the posting windows' payloads, in window order, to `post_influx` |
| RunLoop.AttemptsFollowWindows | relay-airgradient.py:146-196 | the records the loop hands to `post_influx` are exactly the payloads of the windows that post, in window order, so the window schedule applies to the loop that posts |
| RunLoop.RunAsWrittenNeverSends | relay-airgradient.py:146-196 | from the empty queue the relay as written never sends anything and the queue stays empty, however many windows post |
| RunLoop.RunIntendedRelaysInOrder | relay-airgradient.py:186-194 | with the corrected call the queue stays within the limit. Until the limit is reached, every posted payload is either sent or still queued, in window order |
| Args.Classify | relay-airgradient.py:225-239 | no contract of its own; `ClassifyShape`, `ClassifyTriple`, `ClassifyNotTriple`, `ClassifySampling` and `SamplingOnlyFromDigits` state, in both directions, which arguments assign what |
| Args.Scan | relay-airgradient.py:224-239 | no contract of its own; `ScanIsLastWriter` equates it with the last-writer reference |
| Args.ParseArgs | relay-airgradient.py:206-254 | a count other than four fails first, then a missing or empty token; an accepted configuration has non-empty names and positive sample count and period |
| Args.ScanIsLastWriter | relay-airgradient.py:224-239 | later arguments override earlier ones: each setting holds the value of the last argument assigning it, or is unset |
| Args.ParseArgsAccepts | relay-airgradient.py:206-254 | accepted exactly when there are four arguments, a non-empty token and all seven last-written settings truthy; the configuration is those settings |
| Args.ClassifyShape | relay-airgradient.py:225-239 | a triple needs a `/` and no `*`; a sampling needs a `*`; an argument with neither `/` nor `*` that starts with `loc:` always sets the location to the rest, and only such an argument does; the sensor host is set, to the argument verbatim, exactly when none of these tests applies |
| Args.ClassifyTriple | relay-airgradient.py:225-230 | `h/o/b` without `*` names the InfluxDB host, organisation and bucket |
| Args.ClassifyNotTriple | relay-airgradient.py:225-227 | a `/` argument without `*` whose part count is not three (two, four or more) assigns nothing: it is neither a host nor a location |
| Args.UrlIgnored | relay-airgradient.py:225-227 | a URL such as `http://h/o/b`, given where a hostname triple is expected, is silently ignored |
| Args.ClassifySampling | relay-airgradient.py:231-235 | `n*p` with digit strings sets the sample count and period, zero included |
| Args.SamplingOnlyFromDigits | relay-airgradient.py:231-235 | only an argument of the form `digits*digits` sets the sampling, to those two numbers, so `5*60*2`, `5*1.5` or `*60` are ignored |
| Args.SlashBeforeLocation | relay-airgradient.py:225-237 | `loc:a/b/c` is taken as an InfluxDB triple, since the `/` test comes first |
| Args.ZeroSamplesExample | relay-airgradient.py:231-235 | `0*60` sets a falsy sample count |
| Args.ZeroPeriodExample | relay-airgradient.py:231-235 | `5*0` sets a falsy period |
| Args.EmptyLocationExample | relay-airgradient.py:236-237 | `loc:` sets a falsy (empty) location |
| Args.EmptyOrgExample | relay-airgradient.py:225-230 | `h//b` sets a falsy (empty) organisation |
| Args.AcceptsUsageExample | relay-airgradient.py:206-254 | the four arguments of the usage line, in another order and with a token, give the configuration they describe |

## Left out

- HTTP (`get_airgradient`, the POST in `process_post_queue`, sessions and headers): replaced by the fetched reading of each `Tick` and the send outcomes of each flush.
- `datetime.now()` and `time.sleep`: time is integer seconds supplied per tick, and sleeping has no effect on the state.
- Logging and `PaddedLevelFormatter`: their only effect is formatted output.
- `os.environ` and `sys.exit`: the token is an `Option<string>` input, and exiting is a `Failure` result.
- Exceptions are results, not control flow. A failed fetch or conversion is `None` and is skipped. A failed send ends the drain pass with `raised`, and the run loop carries on with the queue as it stands.
- Floating point: values are exact reals. `round(x, 2)` is round-half-even on the exact value, and `str(float)` is the `render` parameter. Nothing is proved about float rounding.
- Sub-second time: `window_center_time` is kept in whole seconds plus the half-second that `num_samples * period_sec / 2` can add, and `int(timestamp())` truncates its UTC value exactly. Microseconds of `datetime.now()` are not modelled. Zone offsets are taken as whole seconds, looked up at the wall-clock second that holds the centre.
- `str.isdigit` on non-ASCII digits: only `'0'`–`'9'` count as digits.
- Raw readings hold only numbers (`map<string, real>`). A non-numeric JSON value under a mapped field is not modelled.
- LED and display brightness scheduling: `relay-airgradient.py` has no code for it.
- `PostQueueLimit` is `POST_QUEUE_LIMIT = 20000` (relay-airgradient.py:95).
- Bounds of `datetime`, `timedelta` and `time.sleep` are not modelled: time is an unbounded integer. In the program, an absurdly large `n*period` that `main` accepts (e.g. `1*1000000000000`) makes `next_sample_time += timedelta(...)` at relay-airgradient.py:173 raise an uncaught `OverflowError` past year 9999, and sleeps over about 292 years overflow `time.sleep` at relay-airgradient.py:160, so `run` crashes; the model's loop keeps running instead.
- LineProtocol.PayloadRoundTrip: the round trip requires a location, keys and values free of spaces, commas and `=`, because the relay does not escape them; other payloads are not claimed to read back.
- RunLoop.RunIntendedRelaysInOrder: order preservation is stated only while the total number of posted records stays within the limit; beyond that, records are evicted by design.

## Findings

| source | as written | input that shows it | evidently intended | confidence | as-written member | corrected member |
|---|---|---|---|---|---|---|
| relay-airgradient.py:134-135 | `post_queue.append(post_data)` and `process_post_queue(influx)` sit inside `if len(post_queue) == POST_QUEUE_LIMIT:`, so a record is queued and the queue drained only when it is already full | any post on the initial empty queue, e.g. `PostInfluxAsWritten([], rec, [true])` returns an empty queue with nothing sent; `RunAsWrittenNeverSends` shows no window is ever sent | append and drain on every call, evicting the oldest record first only at the limit | high (not executed) | PostQueue.PostInfluxAsWritten | PostQueue.PostInfluxIntended |

=== FILE: args.dfy ===
/** Command-line validation in `main`: four arguments in any order, each
    recognised by its shape, plus the `INFLUX_TOKEN` environment variable.
    The result is a validated configuration or the reason `main` exits with
    status 1. */
module Args {
  import opened Wrappers
  import opened Strings

  datatype Config = Config(
    influxHost: string, influxOrg: string, influxBucket: string,
    airgradientHost: string, location: string,
    numSamples: nat, periodSec: nat, token: string)

  /** Why `main` exits with status 1 before running. */
  datatype ArgError =
    | WrongArgCount    // `len(sys.argv) != 5`
    | MissingToken     // `INFLUX_TOKEN` unset or empty
    | MissingOrInvalid // some required setting missing or falsy

  /** What one argument sets, decided by the first branch of the `if`/`elif`
      chain that applies to it. */
  datatype ArgKind =
    | InfluxTarget(host: string, org: string, bucket: string)
    | Sampling(numSamples: nat, periodSec: nat)
    | Location(name: string)
    | Device(host: string)
    | Ignored

  /** The classification of one argument: a `/` without `*` is examined first
      and must split into exactly three parts (otherwise the argument is
      ignored); then a `*`, whose two sides must both be digit strings; then
      the `loc:` prefix; anything else names the sensor host. */
  function Classify(arg: string): ArgKind
  {
    if '/' in arg && '*' !in arg then
      var parts := Split(arg, '/');
      if |parts| == 3 then InfluxTarget(parts[0], parts[1], parts[2]) else Ignored
    else if '*' in arg then
      var parts := Split(arg, '*');
      if |parts| == 2 && IsDigits(parts[0]) && IsDigits(parts[1]) then
        Sampling(DigitsValue(parts[0]), DigitsValue(parts[1]))
      else Ignored
    else if StartsWith(arg, "loc:") then
      Location(arg[4..])
    else
      Device(arg)
  }

  /** Which arguments give which kind: a triple needs a `/` and no `*`, a
      sampling needs a `*`, a location is `loc:` and its name with neither,
      and only what is none of these names the sensor host, verbatim. A
      `loc:` argument with neither `/` nor `*` always sets the location. */
  lemma ClassifyShape(arg: string)
    ensures var k := Classify(arg);
      && (k.InfluxTarget? ==> '/' in arg && '*' !in arg)
      && (k.Sampling? ==> '*' in arg)
      && (k.Location? <==> '/' !in arg && '*' !in arg && StartsWith(arg, "loc:"))
      && (k.Location? ==> arg == "loc:" + k.name)
      && (k.Device? <==> '/' !in arg && '*' !in arg && !StartsWith(arg, "loc:"))
      && (k.Device? ==> k.host == arg)
  {
    if StartsWith(arg, "loc:") {
      assert arg == "loc:" + arg[4..];
    }
  }

  /** Only `digits*digits` sets the sampling: `5*60*2`, `5*1.5` or `*60`
      are ignored. */
  lemma SamplingOnlyFromDigits(arg: string)
    requires Classify(arg).Sampling?
    ensures exists n, p ::
      && IsDigits(n) && IsDigits(p) && arg == n + "*" + p
      && Classify(arg) == Sampling(DigitsValue(n), DigitsValue(p))
  {
    var parts := Split(arg, '*');
    assert |parts| == 2;
    assert parts[1..] == [parts[1]];
    assert Join(parts, '*') == parts[0] + "*" + parts[1];
  }

  /** The local variables of `main`, grouped as they are assigned together;
      `None` is Python's `None`. */
  datatype Settings = Settings(
    influx: Option<(string, string, string)>,
    device: Option<string>,
    location: Option<string>,
    sampling: Option<(nat, nat)>)

  const Unset := Settings(None, None, None, None)

  /** The assignments one argument performs. */
  function Apply(s: Settings, k: ArgKind): Settings
  {
    match k
    case InfluxTarget(h, o, b) => s.(influx := Some((h, o, b)))
    case Sampling(n, p) => s.(sampling := Some((n, p)))
    case Location(name) => s.(location := Some(name))
    case Device(h) => s.(device := Some(h))
    case Ignored => s
  }

  /** The `for arg in args` loop. */
  function Scan(s: Settings, args: seq<string>): Settings
    decreases |args|
  {
    if |args| == 0 then s else Scan(Apply(s, Classify(args[0])), args[1..])
  }

  /** Python truthiness of all seven settings: each set, strings non-empty,
      numbers non-zero. */
  predicate AllTruthy(s: Settings)
  {
    && s.influx.Some? && s.influx.value.0 != "" && s.influx.value.1 != "" && s.influx.value.2 != ""
    && s.device.Some? && s.device.value != ""
    && s.location.Some? && s.location.value != ""
    && s.sampling.Some? && s.sampling.value.0 != 0 && s.sampling.value.1 != 0
  }

  /** `main` up to the call of `run`: the argument count is checked first,
      then the token, then the arguments. Acceptance needs exactly four
      arguments, a non-empty token and all seven settings truthy, so the
      accepted configuration has positive sample count and period and no
      empty names. */
  function ParseArgs(args: seq<string>, token: Option<string>): (r: Result<Config, ArgError>)
    ensures |args| != 4 ==> r == Failure(WrongArgCount)
    ensures |args| == 4 && (token == None || token == Some("")) ==> r == Failure(MissingToken)
    ensures r.Success? ==>
      && |args| == 4 && token == Some(r.value.token) && r.value.token != ""
      && r.value.influxHost != "" && r.value.influxOrg != "" && r.value.influxBucket != ""
      && r.value.airgradientHost != "" && r.value.location != ""
      && r.value.numSamples > 0 && r.value.periodSec > 0
  {
    if |args| != 4 then Failure(WrongArgCount)
    else if token.None? || token.value == "" then Failure(MissingToken)
    else
      var s := Scan(Unset, args);
      if AllTruthy(s) then
        var (h, o, b) := s.influx.value;
        var (n, p) := s.sampling.value;
        Success(Config(h, o, b, s.device.value, s.location.value, n, p, token.value))
      else Failure(MissingOrInvalid)
  }

  // Reference: the value of each setting is given by the last argument that
  // assigns it, found by scanning from the end.

  function LastInflux(args: seq<string>): Option<(string, string, string)>
    decreases |args|
  {
    if |args| == 0 then None
    else match Classify(args[|args| - 1])
      case InfluxTarget(h, o, b) => Some((h, o, b))
      case _ => LastInflux(args[..|args| - 1])
  }

  function LastDevice(args: seq<string>): Option<string>
    decreases |args|
  {
    if |args| == 0 then None
    else match Classify(args[|args| - 1])
      case Device(h) => Some(h)
      case _ => LastDevice(args[..|args| - 1])
  }

  function LastLocation(args: seq<string>): Option<string>
    decreases |args|
  {
    if |args| == 0 then None
    else match Classify(args[|args| - 1])
      case Location(name) => Some(name)
      case _ => LastLocation(args[..|args| - 1])
  }

  function LastSampling(args: seq<string>): Option<(nat, nat)>
    decreases |args|
  {
    if |args| == 0 then None
    else match Classify(args[|args| - 1])
      case Sampling(n, p) => Some((n, p))
      case _ => LastSampling(args[..|args| - 1])
  }

  function LastWriters(args: seq<string>): Settings
  {
    Settings(LastInflux(args), LastDevice(args), LastLocation(args), LastSampling(args))
  }

  /** Scanning one more argument applies it on top of the earlier scan. */
  lemma {:induction false} ScanSnoc(s: Settings, args: seq<string>, a: string)
    ensures Scan(s, args + [a]) == Apply(Scan(s, args), Classify(a))
    decreases |args|
  {
    if |args| > 0 {
      assert (args + [a])[1..] == args[1..] + [a];
      ScanSnoc(Apply(s, Classify(args[0])), args[1..], a);
    }
  }

  /** Later arguments override earlier ones: after the loop, every setting
      holds the value from the last argument that assigns it, and is unset
      when no argument does. */
  lemma {:induction false} ScanIsLastWriter(args: seq<string>)
    ensures Scan(Unset, args) == LastWriters(args)
    decreases |args|
  {
    if |args| > 0 {
      var init := args[..|args| - 1];
      var a := args[|args| - 1];
      assert init + [a] == args;
      ScanSnoc(Unset, init, a);
      ScanIsLastWriter(init);
    }
  }

  /** `main` accepts exactly when there are four arguments, a non-empty token,
      and the last argument assigning each setting gives it a truthy value;
      the configuration then holds those last values. */
  lemma ParseArgsAccepts(args: seq<string>, token: Option<string>)
    ensures ParseArgs(args, token).Success?
        <==> |args| == 4 && token.Some? && token.value != "" && AllTruthy(LastWriters(args))
    ensures ParseArgs(args, token).Success? ==>
      var c := ParseArgs(args, token).value;
      var w := LastWriters(args);
      && w.influx == Some((c.influxHost, c.influxOrg, c.influxBucket))
      && w.device == Some(c.airgradientHost)
      && w.location == Some(c.location)
      && w.sampling == Some((c.numSamples, c.periodSec))
  {
    ScanIsLastWriter(args);
  }

  /** An argument `h/o/b` with slash-free parts, no `*`, names the InfluxDB
      target, even when it starts with `loc:`. */
  lemma ClassifyTriple(h: string, o: string, b: string)
    requires '/' !in h && '/' !in o && '/' !in b
    requires '*' !in h && '*' !in o && '*' !in b
    ensures Classify(h + "/" + o + "/" + b) == InfluxTarget(h, o, b)
  {
    var arg := h + "/" + o + "/" + b;
    assert [h, o, b][1..] == [o, b] && [o, b][1..] == [b];
    assert Join([b], '/') == b;
    assert Join([o, b], '/') == o + "/" + b;
    assert Join([h, o, b], '/') == arg;
    SplitJoin([h, o, b], '/');
    assert arg[|h|] == '/';
  }

  /** A `/` argument that does not split into exactly three parts assigns
      nothing: it is neither a host nor a location, whatever its part count
      (`a/b`, `a/b/c/d`, or a URL such as `http://h/o/b`). */
  lemma ClassifyNotTriple(parts: seq<string>)
    requires |parts| >= 2 && |parts| != 3
    requires forall i :: 0 <= i < |parts| ==> '/' !in parts[i] && '*' !in parts[i]
    ensures Classify(Join(parts, '/')) == Ignored
  {
    SplitJoin(parts, '/');
    JoinHead(parts, '/');
    assert Join(parts, '/')[|parts[0]|] == '/';
    JoinAvoids(parts, '/', '*');
  }

  /** A URL such as `http://h/o/b` (five parts), which the header comment
      rules out, is ignored. */
  lemma UrlIgnored()
    ensures Classify("http://h/o/b") == Ignored
  {
    var parts := ["http:", "", "h", "o", "b"];
    assert Join(parts, '/') == "http://h/o/b";
    ClassifyNotTriple(parts);
  }

  /** `n*p` with digit strings on both sides sets the sampling values,
      zero included (zero is rejected later, as falsy). */
  lemma ClassifySampling(n: string, p: string)
    requires IsDigits(n) && IsDigits(p)
    ensures Classify(n + "*" + p) == Sampling(DigitsValue(n), DigitsValue(p))
  {
    var arg := n + "*" + p;
    assert forall i :: 0 <= i < |n| ==> n[i] != '/' && n[i] != '*';
    assert forall i :: 0 <= i < |p| ==> p[i] != '/' && p[i] != '*';
    assert [n, p][1..] == [p];
    assert Join([p], '*') == p;
    assert Join([n, p], '*') == arg;
    SplitJoin([n, p], '*');
    assert arg[|n|] == '*';
    assert '/' !in arg;
  }

  lemma SamplingExample()
    ensures Classify("5*60") == Sampling(5, 60)
  {
    ClassifySampling("5", "60");
    assert "5" + "*" + "60" == "5*60";
    assert DigitsValue("60") == 60;
  }

  lemma LocationExample()
    ensures Classify("loc:kitchen") == Location("kitchen")
  {
    var a := "loc:kitchen";
    assert forall i | 0 <= i < |a| :: a[i] != '/' && a[i] != '*';
    assert a[..4] == "loc:";
  }

  lemma DeviceExample()
    ensures Classify("airgradient.local") == Device("airgradient.local")
  {
    var d := "airgradient.local";
    assert d[0] == 'a';
    assert forall i | 0 <= i < |d| :: d[i] != '/' && d[i] != '*';
  }

  lemma InfluxExample()
    ensures Classify("influx.lan/home/air") == InfluxTarget("influx.lan", "home", "air")
  {
    ClassifyTriple("influx.lan", "home", "air");
    assert "influx.lan" + "/" + "home" + "/" + "air" == "influx.lan/home/air";
  }

  // The shapes the usage line rules out classify to falsy settings, so by
  // `ParseArgsAccepts` they make `main` reject the arguments whenever they
  // are the last writers of their setting.

  lemma ZeroSamplesExample()
    ensures Classify("0*60") == Sampling(0, 60)
  {
    ClassifySampling("0", "60");
    assert "0" + "*" + "60" == "0*60";
    assert DigitsValue("60") == 60;
  }

  lemma ZeroPeriodExample()
    ensures Classify("5*0") == Sampling(5, 0)
  {
    ClassifySampling("5", "0");
    assert "5" + "*" + "0" == "5*0";
  }

  lemma EmptyLocationExample()
    ensures Classify("loc:") == Location("")
  {
    var l := "loc:";
    assert forall i | 0 <= i < |l| :: l[i] != '/' && l[i] != '*';
    assert l[..4] == "loc:";
  }

  lemma EmptyOrgExample()
    ensures Classify("h//b") == InfluxTarget("h", "", "b")
  {
    ClassifyTriple("h", "", "b");
    assert "h" + "/" + "" + "/" + "b" == "h//b";
  }

  /** The `/` test comes before the `loc:` test: `loc:a/b/c` names an
      InfluxDB host called `loc:a`, not a location. */
  lemma SlashBeforeLocation()
    ensures Classify("loc:a/b/c") == InfluxTarget("loc:a", "b", "c")
  {
    ClassifyTriple("loc:a", "b", "c");
    assert "loc:a" + "/" + "b" + "/" + "c" == "loc:a/b/c";
  }

  lemma ScanExample()
    ensures Scan(Unset, ["5*60", "loc:kitchen", "airgradient.local", "influx.lan/home/air"])
         == Settings(Some(("influx.lan", "home", "air")), Some("airgradient.local"), Some("kitchen"), Some((5, 60)))
  {
    var args := ["5*60", "loc:kitchen", "airgradient.local", "influx.lan/home/air"];
    SamplingExample();
    LocationExample();
    DeviceExample();
    InfluxExample();
    var s1 := Apply(Unset, Sampling(5, 60));
    var s2 := Apply(s1, Location("kitchen"));
    var s3 := Apply(s2, Device("airgradient.local"));
    var s4 := Apply(s3, InfluxTarget("influx.lan", "home", "air"));
    assert args[1..][1..][1..][1..] == [];
    assert Scan(s4, []) == s4;
    assert Scan(s3, args[1..][1..][1..]) == s4;
    assert Scan(s2, args[1..][1..]) == s4;
    assert Scan(s1, args[1..]) == s4;
  }

  /** The configuration the usage line describes, given in another order, is
      accepted. */
  lemma AcceptsUsageExample()
    ensures ParseArgs(["5*60", "loc:kitchen", "airgradient.local", "influx.lan/home/air"], Some("secret"))
         == Success(Config("influx.lan", "home", "air", "airgradient.local", "kitchen", 5, 60, "secret"))
  {
    var args := ["5*60", "loc:kitchen", "airgradient.local", "influx.lan/home/air"];
    ScanExample();
    var s := Scan(Unset, args);
    assert AllTruthy(s);
    assert s.influx.value == ("influx.lan", "home", "air");
    assert s.sampling.value == (5, 60);
  }
}

=== FILE: averaging.dfy ===
/** Per-window averaging of converted readings (the averaging block of `run`). */
module Averaging {
  import opened Wrappers
  import opened Dicts

  function Sum(xs: seq<real>): real
  {
    if |xs| == 0 then 0.0 else xs[0] + Sum(xs[1..])
  }

  function MinOf(xs: seq<real>): real
    requires |xs| > 0
  {
    if |xs| == 1 then xs[0]
    else var m := MinOf(xs[1..]); if xs[0] <= m then xs[0] else m
  }

  function MaxOf(xs: seq<real>): real
    requires |xs| > 0
  {
    if |xs| == 1 then xs[0]
    else var m := MaxOf(xs[1..]); if xs[0] >= m then xs[0] else m
  }

  /** `sum(values) / len(values)` over exact reals. */
  function Mean(xs: seq<real>): real
    requires |xs| > 0
  {
    Sum(xs) / (|xs| as real)
  }

  /** The sum of a list lies between its length times its least and its
      greatest element. */
  lemma {:induction false} SumBounds(xs: seq<real>)
    requires |xs| > 0
    ensures (|xs| as real) * MinOf(xs) <= Sum(xs) <= (|xs| as real) * MaxOf(xs)
  {
    if |xs| > 1 {
      SumBounds(xs[1..]);
    }
  }

  /** Dividing bounds `n * lo <= s <= n * hi` by a positive `n`. */
  lemma DivideBounds(s: real, n: real, lo: real, hi: real)
    requires n > 0.0
    requires n * lo <= s <= n * hi
    ensures lo <= s / n <= hi
  {
    var q := s / n;
    assert q * n == s;
  }

  /** The mean never leaves the range of the values it is taken over. */
  lemma MeanBetween(xs: seq<real>)
    requires |xs| > 0
    ensures MinOf(xs) <= Mean(xs) <= MaxOf(xs)
  {
    SumBounds(xs);
    DivideBounds(Sum(xs), |xs| as real, MinOf(xs), MaxOf(xs));
  }

  /** `round(x, 2)` on an exact real: the nearest multiple of 0.01, ties to
      the even multiple. */
  function Round2(x: real): (r: real)
    ensures (r * 100.0).Floor as real == r * 100.0
    ensures x - 0.005 <= r <= x + 0.005
  {
    var y := x * 100.0;
    var f := y.Floor;
    var frac := y - f as real;
    var n := if frac < 0.5 then f
             else if frac > 0.5 then f + 1
             else if f % 2 == 0 then f else f + 1;
    ScaleBack(x, n);
    n as real / 100.0
  }

  /** An integer within half of `x * 100`, divided back by 100, is a multiple
      of a hundredth within half a hundredth of `x`. */
  lemma ScaleBack(x: real, n: int)
    requires x * 100.0 - 0.5 <= n as real <= x * 100.0 + 0.5
    ensures (n as real / 100.0 * 100.0).Floor as real == n as real / 100.0 * 100.0
    ensures x - 0.005 <= n as real / 100.0 <= x + 0.005
  {
    assert n as real / 100.0 * 100.0 == n as real;
  }

  /** `[s[key] for s in samples if key in s]`: the values recorded for `key`
      by the readings that have it, in reading order. */
  function Column(samples: seq<Dict<real>>, key: string): (col: seq<real>)
    ensures |col| <= |samples|
    ensures |samples| > 0 && key in Keys(samples[0]) ==> |col| >= 1
  {
    if |samples| == 0 then []
    else
      match Get(samples[0], key)
      case Some(v) => [v] + Column(samples[1..], key)
      case None => Column(samples[1..], key)
  }

  /** The value a reading records for `key`, or zero when it has none. */
  function ValueOrZero(d: Dict<real>, key: string): real
  {
    match Get(d, key)
    case Some(v) => v
    case None => 0.0
  }

  /** Sum over all readings of the value for `key`, a reading without it
      contributing zero. */
  function SumPresent(samples: seq<Dict<real>>, key: string): real
  {
    if |samples| == 0 then 0.0
    else ValueOrZero(samples[0], key) + SumPresent(samples[1..], key)
  }

  /** Number of readings that have `key`. */
  function CountPresent(samples: seq<Dict<real>>, key: string): nat
  {
    if |samples| == 0 then 0
    else (if key in Keys(samples[0]) then 1 else 0) + CountPresent(samples[1..], key)
  }

  /** Readings missing a key are left out of both the numerator and the
      denominator of its average: the column's sum is the zero-filled sum and
      its length is the number of readings having the key. */
  lemma {:induction false} ColumnExcludesMissing(samples: seq<Dict<real>>, key: string)
    ensures Sum(Column(samples, key)) == SumPresent(samples, key)
    ensures |Column(samples, key)| == CountPresent(samples, key)
  {
    if |samples| > 0 {
      ColumnExcludesMissing(samples[1..], key);
      var col := Column(samples, key);
      match Get(samples[0], key)
      case Some(v) =>
        assert col[1..] == Column(samples[1..], key);
      case None =>
    }
  }

  /** The averaged value of one metric: the rounded mean of its column. */
  function AverageOf(samples: seq<Dict<real>>, key: string): real
    requires |samples| > 0 && key in Keys(samples[0])
  {
    Round2(Mean(Column(samples, key)))
  }

  /** One averaged entry per key of the first reading, from its entry
      `from` on, in that reading's order. */
  function AverageFrom(samples: seq<Dict<real>>, from: nat): (r: Dict<real>)
    requires |samples| > 0 && from <= |samples[0]|
    ensures |r| == |samples[0]| - from
    ensures forall i :: 0 <= i < |r| ==> r[i].0 == samples[0][from + i].0
    decreases |samples[0]| - from
  {
    if from == |samples[0]| then []
    else
      var key := samples[0][from].0;
      assert Keys(samples[0])[from] == key;
      [(key, AverageOf(samples, key))] + AverageFrom(samples, from + 1)
  }

  lemma {:induction false} AverageFromValues(samples: seq<Dict<real>>, from: nat, i: nat)
    requires |samples| > 0 && from <= |samples[0]| && i < |samples[0]| - from
    ensures samples[0][from + i].0 in Keys(samples[0])
    ensures AverageFrom(samples, from)[i].1 == AverageOf(samples, samples[0][from + i].0)
    decreases i
  {
    assert Keys(samples[0])[from + i] == samples[0][from + i].0;
    if i > 0 {
      AverageFromValues(samples, from + 1, i - 1);
    }
  }

  /** `a` is an acceptable average for `key`: the readings having the key
      are not empty, and `a` is a multiple of a hundredth within half a
      hundredth of their mean, hence within that much of their range. */
  predicate RoundedMeanOf(samples: seq<Dict<real>>, key: string, a: real)
  {
    var col := Column(samples, key);
    && |col| >= 1
    && (a * 100.0).Floor as real == a * 100.0
    && Mean(col) - 0.005 <= a <= Mean(col) + 0.005
    && MinOf(col) - 0.005 <= a <= MaxOf(col) + 0.005
  }

  lemma AverageOfBounds(samples: seq<Dict<real>>, key: string)
    requires |samples| > 0 && key in Keys(samples[0])
    ensures RoundedMeanOf(samples, key, AverageOf(samples, key))
  {
    MeanBetween(Column(samples, key));
  }

  /** `averaged_data`: the metric set is exactly the first reading's keys, in
      its order (metrics first seen in later readings are dropped), and each
      metric is the mean, to two decimals, over the readings that have it. */
  function AverageSamples(samples: seq<Dict<real>>): (r: Dict<real>)
    requires |samples| > 0
    ensures Keys(r) == Keys(samples[0])
    ensures forall i :: 0 <= i < |r| ==> RoundedMeanOf(samples, r[i].0, r[i].1)
  {
    var r := AverageFrom(samples, 0);
    assert Keys(r) == Keys(samples[0]);
    forall i | 0 <= i < |r|
      ensures RoundedMeanOf(samples, r[i].0, r[i].1)
    {
      AverageFromValues(samples, 0, i);
      AverageOfBounds(samples, samples[0][i].0);
    }
    r
  }

  /** Each averaged metric is the zero-filled sum of its values over the
      count of readings that have it, before rounding. */
  lemma AverageIsPresentMean(samples: seq<Dict<real>>, i: nat)
    requires |samples| > 0 && i < |samples[0]|
    ensures CountPresent(samples, samples[0][i].0) >= 1
    ensures AverageSamples(samples)[i].1
         == Round2(SumPresent(samples, samples[0][i].0) / (CountPresent(samples, samples[0][i].0) as real))
  {
    var key := samples[0][i].0;
    ColumnExcludesMissing(samples, key);
    AverageFromValues(samples, 0, i);
  }

  /** A metric absent from the first reading is absent from the result, even
      when later readings carry it. */
  lemma LaterKeysDropped(samples: seq<Dict<real>>, key: string)
    requires |samples| > 0
    requires key !in Keys(samples[0])
    ensures Get(AverageSamples(samples), key) == None
  {
  }
}

=== FILE: dicts.dfy ===
/** Insertion-ordered dictionaries with string keys, the shape of a Python
    `dict` whose iteration order matters (converted readings, averaged
    metrics). A dictionary is its list of entries in insertion order. */
module Dicts {
  import opened Wrappers

  type Dict<V> = seq<(string, V)>

  /** `d.keys()`, in iteration order. */
  function Keys<V>(d: Dict<V>): (ks: seq<string>)
    ensures |ks| == |d|
    ensures forall i :: 0 <= i < |d| ==> ks[i] == d[i].0
  {
    seq(|d|, i requires 0 <= i < |d| => d[i].0)
  }

  /** Every key occurs once, as in any Python dict. */
  predicate DistinctKeys<V>(d: Dict<V>)
  {
    forall i, j :: 0 <= i < j < |d| ==> d[i].0 != d[j].0
  }

  /** `d[k]` when `k in d`, and `None` otherwise. */
  function Get<V>(d: Dict<V>, k: string): (r: Option<V>)
    ensures r.Some? <==> k in Keys(d)
  {
    if |d| == 0 then None
    else if d[0].0 == k then Some(d[0].1)
    else
      assert Keys(d) == [d[0].0] + Keys(d[1..]);
      Get(d[1..], k)
  }

  /** A value `Get` finds is stored under its key. */
  lemma {:induction false} GetFound<V>(d: Dict<V>, k: string)
    requires Get(d, k).Some?
    ensures exists i :: 0 <= i < |d| && d[i] == (k, Get(d, k).value)
  {
    if d[0].0 != k {
      GetFound(d[1..], k);
      var i :| 0 <= i < |d[1..]| && d[1..][i] == (k, Get(d, k).value);
      assert d[i + 1] == d[1..][i];
    }
  }

  /** With distinct keys, looking up the key of entry `i` finds entry `i`'s
      value. */
  lemma {:induction false} GetDistinct<V>(d: Dict<V>, i: nat)
    requires DistinctKeys(d) && i < |d|
    ensures Get(d, d[i].0) == Some(d[i].1)
  {
    if i > 0 {
      assert d[0].0 != d[i].0;
      assert DistinctKeys(d[1..]) by {
        forall a, b | 0 <= a < b < |d[1..]| ensures d[1..][a].0 != d[1..][b].0 {
          assert d[1..][a] == d[a + 1] && d[1..][b] == d[b + 1];
        }
      }
      GetDistinct(d[1..], i - 1);
      assert d[1..][i - 1] == d[i];
    }
  }
}

=== FILE: field_map.dfy ===
/** Translation of a raw AirGradient reading into the canonical metric set
    (`convert_data`). */
module FieldMap {
  import opened Wrappers
  import opened Dicts

  /** The fixed translation table: raw field name to canonical metric name,
      in the order the conversion walks it. */
  const FieldMapping: seq<(string, string)> := [
    ("pm02Compensated", "pm_025_comp"),
    ("pm003Count", "pm_003_ct"),
    ("pm01", "pm_010"),
    ("pm10", "pm_100"),
    ("rco2", "co2"),
    ("atmp", "temperature_c"),
    ("rhum", "humidity_pct"),
    ("tvocIndex", "tvoc_index"),
    ("tvocRaw", "tvoc_raw"),
    ("noxIndex", "nox_index")
  ]

  /** Both columns of a translation table name each field once. */
  predicate WellFormedTable(table: seq<(string, string)>)
  {
    forall i, j :: 0 <= i < j < |table| ==> table[i].0 != table[j].0 && table[i].1 != table[j].1
  }

  lemma FieldMappingWellFormed()
    ensures WellFormedTable(FieldMapping)
  {
  }

  /** Walks the rows of `table` from index `from` on and, for each row whose
      raw name is present in `data`, emits the canonical name with the raw
      value (the loop body of `convert_data`). */
  function ConvertFrom<V>(table: seq<(string, string)>, data: map<string, V>, from: nat): (r: Dict<V>)
    requires from <= |table|
    ensures |r| <= |table| - from
    decreases |table| - from
  {
    if from == |table| then []
    else
      var (raw, canonical) := table[from];
      (if raw in data then [(canonical, data[raw])] else []) + ConvertFrom(table, data, from + 1)
  }

  /** `convert_data`: the reading restricted to the fields of the table and
      renamed to canonical names; never longer than the table. */
  function ConvertData<V>(data: map<string, V>): (r: Dict<V>)
    ensures |r| <= |FieldMapping|
  {
    ConvertFrom(FieldMapping, data, 0)
  }

  /** The table rows at or after `from` whose raw field occurs in `data`. */
  function SelectedRows<V>(table: seq<(string, string)>, data: map<string, V>, from: nat): (rows: seq<nat>)
    requires from <= |table|
    decreases |table| - from
  {
    if from == |table| then []
    else (if table[from].0 in data then [from] else []) + SelectedRows(table, data, from + 1)
  }

  predicate StrictlyIncreasing(xs: seq<nat>)
  {
    forall i, j :: 0 <= i < j < |xs| ==> xs[i] < xs[j]
  }

  /** `rows` lists, in increasing order, exactly the rows of `table` at or
      after `from` whose raw field occurs in `data`. */
  predicate ExactlyPresentRows<V>(table: seq<(string, string)>, data: map<string, V>, from: nat, rows: seq<nat>)
  {
    && StrictlyIncreasing(rows)
    && (forall i :: 0 <= i < |rows| ==> from <= rows[i] < |table| && table[rows[i]].0 in data)
    && (forall j :: from <= j < |table| && table[j].0 in data ==> j in rows)
  }

  /** `r` holds, entry by entry, the canonical name and raw value of `rows`. */
  predicate RenamesRows<V(==)>(table: seq<(string, string)>, data: map<string, V>, rows: seq<nat>, r: Dict<V>)
  {
    && |r| == |rows|
    && forall i :: 0 <= i < |r| ==>
         rows[i] < |table| && table[rows[i]].0 in data
         && r[i] == (table[rows[i]].1, data[table[rows[i]].0])
  }

  lemma {:induction false} SelectedRowsSpec<V>(table: seq<(string, string)>, data: map<string, V>, from: nat)
    requires from <= |table|
    ensures ExactlyPresentRows(table, data, from, SelectedRows(table, data, from))
    decreases |table| - from
  {
    if from < |table| {
      SelectedRowsSpec(table, data, from + 1);
    }
  }

  /** The conversion of the rows from `from` on is the renaming of the
      selected rows. */
  lemma {:induction false} ConvertIsSelection<V>(table: seq<(string, string)>, data: map<string, V>, from: nat)
    requires from <= |table|
    ensures RenamesRows(table, data, SelectedRows(table, data, from), ConvertFrom(table, data, from))
    decreases |table| - from
  {
    if from < |table| {
      ConvertIsSelection(table, data, from + 1);
      SelectedRowsSpec(table, data, from + 1);
    }
  }

  /** The complete characterisation of `convert_data`: its entries are, in
      table order, exactly the table rows whose raw field the reading has,
      each under its canonical name with the raw value unchanged. */
  lemma ConvertDataSelectsRows<V>(data: map<string, V>)
    ensures ExactlyPresentRows(FieldMapping, data, 0, SelectedRows(FieldMapping, data, 0))
    ensures RenamesRows(FieldMapping, data, SelectedRows(FieldMapping, data, 0), ConvertData(data))
  {
    ConvertIsSelection(FieldMapping, data, 0);
    SelectedRowsSpec(FieldMapping, data, 0);
  }

  /** For a well-formed table: distinct keys, every row whose raw field is
      present appears under its canonical name with the raw value, and a
      canonical name whose raw field is absent does not appear. */
  lemma ConvertLookup<V>(table: seq<(string, string)>, data: map<string, V>)
    requires WellFormedTable(table)
    ensures DistinctKeys(ConvertFrom(table, data, 0))
    ensures forall j :: 0 <= j < |table| && table[j].0 in data ==>
      Get(ConvertFrom(table, data, 0), table[j].1) == Some(data[table[j].0])
    ensures forall j :: 0 <= j < |table| && table[j].0 !in data ==>
      table[j].1 !in Keys(ConvertFrom(table, data, 0))
  {
    var r := ConvertFrom(table, data, 0);
    var rows := SelectedRows(table, data, 0);
    ConvertIsSelection(table, data, 0);
    SelectedRowsSpec(table, data, 0);
    assert DistinctKeys(r) by {
      forall i, k | 0 <= i < k < |r| ensures r[i].0 != r[k].0 {
        assert rows[i] < rows[k];
      }
    }
    forall j | 0 <= j < |table| && table[j].0 in data
      ensures Get(r, table[j].1) == Some(data[table[j].0])
    {
      var i :| 0 <= i < |rows| && rows[i] == j;
      assert r[i] == (table[j].1, data[table[j].0]);
      GetDistinct(r, i);
    }
  }

  /** `convert_data` yields a dictionary keyed by canonical names, one per
      present raw field, and omits (rather than zero-fills) absent ones. */
  lemma ConvertDataLookup<V>(data: map<string, V>)
    ensures DistinctKeys(ConvertData(data))
    ensures forall j :: 0 <= j < |FieldMapping| && FieldMapping[j].0 in data ==>
      Get(ConvertData(data), FieldMapping[j].1) == Some(data[FieldMapping[j].0])
    ensures forall j :: 0 <= j < |FieldMapping| && FieldMapping[j].0 !in data ==>
      FieldMapping[j].1 !in Keys(ConvertData(data))
  {
    FieldMappingWellFormed();
    ConvertLookup(FieldMapping, data);
  }

  /** The reading used as an end-to-end example: carbon dioxide and
      temperature are renamed, nothing else is invented. */
  lemma ConvertDataExample()
    ensures ConvertData(map["rco2" := 410.2, "atmp" := 21.5, "wifi" := -51.0])
         == [("co2", 410.2), ("temperature_c", 21.5)]
  {
    var d := map["rco2" := 410.2, "atmp" := 21.5, "wifi" := -51.0];
    assert ConvertFrom(FieldMapping, d, 10) == [];
    assert ConvertFrom(FieldMapping, d, 8) == [];
    assert ConvertFrom(FieldMapping, d, 6) == [];
    assert ConvertFrom(FieldMapping, d, 5) == [("temperature_c", 21.5)];
    assert ConvertFrom(FieldMapping, d, 4) == [("co2", 410.2), ("temperature_c", 21.5)];
    assert ConvertFrom(FieldMapping, d, 2) == [("co2", 410.2), ("temperature_c", 21.5)];
  }
}

=== FILE: line_protocol.dfy ===
/** The InfluxDB v2 line-protocol record built by `post_influx`: measurement
    `airquality`, one tag `location`, the comma-separated field set and a
    whole-second timestamp padded with nine zeros to nanoseconds. */
module LineProtocol {
  import opened Wrappers
  import opened Strings

  const LinePrefix: string := "airquality,location="
  const NanosPadding: string := "000000000"

  /** `f"{k}={v}"` for each field, in order. */
  function FieldTexts(fields: seq<(string, string)>): (texts: seq<string>)
    ensures |texts| == |fields|
    ensures forall i :: 0 <= i < |fields| ==> texts[i] == fields[i].0 + "=" + fields[i].1
  {
    seq(|fields|, i requires 0 <= i < |fields| => fields[i].0 + "=" + fields[i].1)
  }

  /** `post_data`: the record for `location` at second `ts`, with the
      already rendered field values. */
  function Payload(location: string, ts: int, fields: seq<(string, string)>): (r: string)
    ensures |r| >= |LinePrefix + location + " "| + 9
    ensures r[..|LinePrefix + location + " "|] == LinePrefix + location + " "
    ensures r[|r| - 9..] == NanosPadding
  {
    LinePrefix + location + " " + Join(FieldTexts(fields), ',') + " " + IntToString(ts) + NanosPadding
  }

  /** A decoded record: location tag, field set and nanosecond timestamp. */
  datatype Line = Line(location: string, fields: seq<(string, string)>, nanos: int)

  /** Reads one `key=value` field. */
  function ParseField(t: string): (r: Option<(string, string)>)
    ensures r.Some? ==> t == r.value.0 + "=" + r.value.1
  {
    var kv := Split(t, '=');
    if |kv| == 2 then
      assert Join(kv, '=') == kv[0] + "=" + kv[1];
      Some((kv[0], kv[1]))
    else None
  }

  function ParseFields(texts: seq<string>): (r: Option<seq<(string, string)>>)
    ensures r.Some? ==> |r.value| == |texts|
  {
    if |texts| == 0 then Some([])
    else
      match (ParseField(texts[0]), ParseFields(texts[1..]))
      case (Some(f), Some(fs)) => Some([f] + fs)
      case _ => None
  }

  /** Reads a record of the shape `post_influx` writes. */
  function ParseLine(s: string): Option<Line>
  {
    var parts := Split(s, ' ');
    if |parts| != 3 || !StartsWith(parts[0], LinePrefix) || !IsIntString(parts[2]) then None
    else
      var fields := if parts[1] == "" then Some([]) else ParseFields(Split(parts[1], ','));
      match fields
      case None => None
      case Some(fs) => Some(Line(parts[0][|LinePrefix|..], fs, ParseInt(parts[2])))
  }

  /** Text that needs no escaping in line protocol: no space, comma or equals sign. */
  predicate Plain(t: string)
  {
    ' ' !in t && ',' !in t && '=' !in t
  }

  lemma ParseFieldRoundTrip(k: string, v: string)
    requires Plain(k) && Plain(v)
    ensures ParseField(k + "=" + v) == Some((k, v))
  {
    assert Join([k, v], '=') == k + "=" + v;
    SplitJoin([k, v], '=');
  }

  lemma {:induction false} ParseFieldsRoundTrip(fields: seq<(string, string)>)
    requires forall i :: 0 <= i < |fields| ==> Plain(fields[i].0) && Plain(fields[i].1)
    ensures ParseFields(FieldTexts(fields)) == Some(fields)
    decreases |fields|
  {
    if |fields| > 0 {
      ParseFieldRoundTrip(fields[0].0, fields[0].1);
      ParseFieldsRoundTrip(fields[1..]);
      assert FieldTexts(fields)[1..] == FieldTexts(fields[1..]);
      assert [fields[0]] + fields[1..] == fields;
    }
  }

  /** The field-set text is empty exactly when there are no fields, and it
      splits on commas back into the individual `key=value` texts. */
  lemma FieldSetSplits(fields: seq<(string, string)>)
    requires forall i :: 0 <= i < |fields| ==> Plain(fields[i].0) && Plain(fields[i].1)
    ensures var f := Join(FieldTexts(fields), ',');
      && ' ' !in f
      && (f == "" <==> |fields| == 0)
      && (|fields| > 0 ==> Split(f, ',') == FieldTexts(fields))
  {
    var texts := FieldTexts(fields);
    JoinAvoids(texts, ',', ' ');
    if |fields| > 0 {
      JoinHead(texts, ',');
      assert '=' in texts[0];
      SplitJoin(texts, ',');
    }
  }

  lemma JoinThree(a: string, b: string, c: string, sep: char)
    ensures Join([a, b, c], sep) == a + [sep] + b + [sep] + c
  {
    assert [a, b, c][1..] == [b, c];
    assert [b, c][1..] == [c];
    assert Join([c], sep) == c;
    assert Join([b, c], sep) == b + [sep] + c;
    assert Join([a, b, c], sep) == a + [sep] + (b + [sep] + c);
  }

  /** The timestamp text is free of spaces and reads back in nanoseconds. */
  lemma TimestampText(ts: int)
    ensures ' ' !in IntToString(ts) + NanosPadding
    ensures IsIntString(IntToString(ts) + NanosPadding)
    ensures ParseInt(IntToString(ts) + NanosPadding) == ts * 1000000000
  {
    var t := IntToString(ts) + NanosPadding;
    assert NanosPadding == Zeros(9);
    NanosRoundTrip(ts);
    if |t| > 0 && t[0] == '-' {
      assert forall i :: 1 <= i < |t| ==> t[i] == t[1..][i - 1];
    }
  }

  /** Reading a record back yields the location, the fields in order and the
      timestamp in nanoseconds, provided the location and fields need no
      escaping (the relay does not escape them). */
  lemma PayloadRoundTrip(location: string, ts: int, fields: seq<(string, string)>)
    requires Plain(location)
    requires forall i :: 0 <= i < |fields| ==> Plain(fields[i].0) && Plain(fields[i].1)
    ensures ParseLine(Payload(location, ts, fields)) == Some(Line(location, fields, ts * 1000000000))
  {
    var a := LinePrefix + location;
    var f := Join(FieldTexts(fields), ',');
    var t := IntToString(ts) + NanosPadding;
    TimestampText(ts);
    FieldSetSplits(fields);
    assert ' ' !in a;
    JoinThree(a, f, t, ' ');
    assert Payload(location, ts, fields) == Join([a, f, t], ' ');
    SplitJoin([a, f, t], ' ');
    var parts := Split(Payload(location, ts, fields), ' ');
    assert parts == [a, f, t];
    assert a[..|LinePrefix|] == LinePrefix;
    assert a[|LinePrefix|..] == location;
    if |fields| > 0 {
      ParseFieldsRoundTrip(fields);
    }
  }
}

=== FILE: post_queue.dfy ===
/** The bounded FIFO of pending InfluxDB writes: `post_queue`,
    `process_post_queue` and `post_influx`. The queue is a value threaded
    through the operations; each send attempt's outcome comes from an oracle
    list, and an attempt past the end of that list counts as a failure. */
module PostQueue {

  /** `POST_QUEUE_LIMIT`. */
  const PostQueueLimit: nat := 20000

  /** The queue after a drain pass, the records sent (in send order), and
      whether the pass ended by raising on a failed send. */
  datatype Drained = Drained(queue: seq<string>, sent: seq<string>, raised: bool)

  /** `true` when the `i`-th send attempt of a pass succeeds. */
  predicate SendSucceeds(outcomes: seq<bool>, i: nat)
  {
    i < |outcomes| && outcomes[i]
  }

  /** `process_post_queue`: send the head, pop it on success, repeat; raise
      on the first failure. Records leave only from the head, so what was
      sent followed by what remains is the original queue; the pass returns
      normally exactly when the queue is empty, and otherwise stopped at a
      failed attempt on the record now at the head. */
  function ProcessPostQueue(q: seq<string>, outcomes: seq<bool>): (r: Drained)
    ensures r.sent + r.queue == q
    ensures !r.raised <==> r.queue == []
    ensures forall i :: 0 <= i < |r.sent| ==> SendSucceeds(outcomes, i)
    ensures r.raised ==> !SendSucceeds(outcomes, |r.sent|)
    decreases |q|
  {
    if q == [] then Drained([], [], false)
    else if SendSucceeds(outcomes, 0) then
      var r := ProcessPostQueue(q[1..], outcomes[1..]);
      assert forall i :: 1 <= i <= |r.sent| ==> SendSucceeds(outcomes, i) == SendSucceeds(outcomes[1..], i - 1);
      Drained(r.queue, [q[0]] + r.sent, r.raised)
    else Drained(q, [], true)
  }

  /** `post_influx` as written: the append and the flush sit inside the
      full-queue branch, so a record is enqueued (after evicting the oldest)
      and the queue drained only when the queue is exactly at the limit;
      otherwise the call changes nothing and sends nothing. */
  function PostInfluxAsWritten(q: seq<string>, rec: string, outcomes: seq<bool>): (r: Drained)
    ensures |q| != PostQueueLimit ==> r == Drained(q, [], false)
    ensures |q| == PostQueueLimit ==> r.sent + r.queue == q[1..] + [rec]
    ensures |q| <= PostQueueLimit ==> |r.queue| <= PostQueueLimit
  {
    if |q| == PostQueueLimit then
      ProcessPostQueue(q[1..] + [rec], outcomes)
    else
      Drained(q, [], false)
  }

  /** `post_influx` with the append and flush unconditional, as the warning
      message and the queue's purpose indicate: at the limit the oldest
      record is evicted, the new record becomes the tail, then the queue is
      drained from the head. The limit is never exceeded. */
  function PostInfluxIntended(q: seq<string>, rec: string, outcomes: seq<bool>): (r: Drained)
    ensures |q| < PostQueueLimit ==> r.sent + r.queue == q + [rec]
    ensures |q| == PostQueueLimit ==> r.sent + r.queue == q[1..] + [rec]
    ensures |q| <= PostQueueLimit ==> |r.queue| <= PostQueueLimit
    ensures |r.queue| > 0 ==> r.queue[|r.queue| - 1] == rec
  {
    var kept := if |q| == PostQueueLimit then q[1..] else q;
    var r := ProcessPostQueue(kept + [rec], outcomes);
    assert |r.queue| > 0 ==> (r.sent + r.queue)[|kept|] == r.queue[|r.queue| - 1];
    r
  }

  /** At the limit, the record that was second becomes the first one sent or
      the new head, and the new record is last in line. */
  lemma EvictionShiftsHead(q: seq<string>, rec: string, outcomes: seq<bool>)
    requires |q| == PostQueueLimit
    ensures var r := PostInfluxIntended(q, rec, outcomes);
      && (r.sent + r.queue)[0] == q[1]
      && (r.sent + r.queue)[PostQueueLimit - 1] == rec
  {
  }

  /** A drain pass that fails can be resumed: the next pass starts with the
      record that failed, and the records sent across both passes are a
      prefix of the original queue in order. */
  lemma {:induction false} FlushResumes(q: seq<string>, first: seq<bool>, second: seq<bool>)
    ensures var r1 := ProcessPostQueue(q, first);
      var r2 := ProcessPostQueue(r1.queue, second);
      && r1.sent + r2.sent + r2.queue == q
      && (r1.raised && |r2.sent| > 0 ==> r2.sent[0] == q[|r1.sent|])
  {
    var r1 := ProcessPostQueue(q, first);
    var r2 := ProcessPostQueue(r1.queue, second);
    assert r1.sent + r2.sent + r2.queue == r1.sent + (r2.sent + r2.queue);
  }

  /** One `post_influx` call: the record to post and the outcomes of the send
      attempts its drain pass makes. */
  datatype Attempt = Attempt(rec: string, outcomes: seq<bool>)

  /** Which `post_influx` a relay uses. */
  datatype Policy = AsWritten | Intended

  function PostInflux(policy: Policy, q: seq<string>, rec: string, outcomes: seq<bool>): Drained
  {
    match policy
    case AsWritten => PostInfluxAsWritten(q, rec, outcomes)
    case Intended => PostInfluxIntended(q, rec, outcomes)
  }

  /** The queue after a sequence of `post_influx` calls, and every record
      sent by them, in send order. */
  datatype Relayed = Relayed(queue: seq<string>, sent: seq<string>)

  function Relay(policy: Policy, q: seq<string>, attempts: seq<Attempt>): Relayed
    decreases |attempts|
  {
    if |attempts| == 0 then Relayed(q, [])
    else
      var d := PostInflux(policy, q, attempts[0].rec, attempts[0].outcomes);
      var rest := Relay(policy, d.queue, attempts[1..]);
      Relayed(rest.queue, d.sent + rest.sent)
  }

  /** Relaying a first attempt and then the rest. */
  lemma RelayCons(policy: Policy, q: seq<string>, a: Attempt, later: seq<Attempt>)
    ensures var d := PostInflux(policy, q, a.rec, a.outcomes);
      var rest := Relay(policy, d.queue, later);
      Relay(policy, q, [a] + later) == Relayed(rest.queue, d.sent + rest.sent)
  {
    assert ([a] + later)[1..] == later;
  }

  function Records(attempts: seq<Attempt>): (recs: seq<string>)
    ensures |recs| == |attempts|
    ensures forall i :: 0 <= i < |attempts| ==> recs[i] == attempts[i].rec
  {
    seq(|attempts|, i requires 0 <= i < |attempts| => attempts[i].rec)
  }

  /** The defect's consequence: below the limit the literal `post_influx`
      never grows the queue, so starting from the empty queue the queue stays
      empty and nothing is ever sent, however many records are posted. */
  lemma {:induction false} AsWrittenNeverSends(q: seq<string>, attempts: seq<Attempt>)
    requires |q| < PostQueueLimit
    ensures Relay(AsWritten, q, attempts) == Relayed(q, [])
    decreases |attempts|
  {
    if |attempts| > 0 {
      AsWrittenNeverSends(q, attempts[1..]);
    }
  }

  /** Posting `rec` to the empty queue with the literal `post_influx` sends
      nothing and leaves the queue empty, even when every send would succeed. */
  lemma AsWrittenDropsFirstRecord(rec: string)
    ensures PostInfluxAsWritten([], rec, [true]) == Drained([], [], false)
    ensures PostInfluxIntended([], rec, [true]) == Drained([], [rec], false)
  {
  }

  /** With the corrected `post_influx` the queue never exceeds the limit. */
  lemma {:induction false} IntendedStaysBounded(q: seq<string>, attempts: seq<Attempt>)
    requires |q| <= PostQueueLimit
    ensures |Relay(Intended, q, attempts).queue| <= PostQueueLimit
    decreases |attempts|
  {
    if |attempts| > 0 {
      var d := PostInfluxIntended(q, attempts[0].rec, attempts[0].outcomes);
      IntendedStaysBounded(d.queue, attempts[1..]);
    }
  }

  /** With the corrected `post_influx`, as long as the limit is never reached
      no record is lost or reordered: everything sent, followed by what is
      still queued, is the starting queue followed by the posted records. */
  lemma {:induction false} IntendedKeepsOrder(q: seq<string>, attempts: seq<Attempt>)
    requires |q| + |attempts| <= PostQueueLimit
    ensures var r := Relay(Intended, q, attempts);
      r.sent + r.queue == q + Records(attempts)
    decreases |attempts|
  {
    if |attempts| > 0 {
      var a := attempts[0];
      var d := PostInfluxIntended(q, a.rec, a.outcomes);
      assert d.sent + d.queue == q + [a.rec];
      assert |d.queue| <= |q| + 1;
      IntendedKeepsOrder(d.queue, attempts[1..]);
      var rest := Relay(Intended, d.queue, attempts[1..]);
      RelayCons(Intended, q, a, attempts[1..]);
      assert [a] + attempts[1..] == attempts;
      RecordsCons(attempts);
      Regroup(q, a.rec, d.sent, d.queue, Records(attempts[1..]), rest.sent, rest.queue);
    }
  }

  lemma RecordsCons(attempts: seq<Attempt>)
    requires |attempts| > 0
    ensures Records(attempts) == [attempts[0].rec] + Records(attempts[1..])
  {
  }

  /** Regrouping one step of the relay: what the first call sent, then what
      the later calls sent and left queued. */
  lemma Regroup(q: seq<string>, x: string, dSent: seq<string>, dQueue: seq<string>,
                recs: seq<string>, rSent: seq<string>, rQueue: seq<string>)
    requires dSent + dQueue == q + [x]
    requires rSent + rQueue == dQueue + recs
    ensures dSent + rSent + rQueue == q + ([x] + recs)
  {
    calc {
      dSent + rSent + rQueue;
      dSent + (rSent + rQueue);
      dSent + (dQueue + recs);
      (dSent + dQueue) + recs;
    }
  }
}

=== FILE: run_loop.dfy ===
/** The sampling and posting loop of `run`, as a state machine over whole
    seconds. The wall clock, the host's time zone, the sensor fetch and the
    InfluxDB sends are oracles: each sample supplies the naive local time
    `datetime.now()` returns and the reading (or `None` when fetching or
    converting it raised), each window supplies the outcomes of the send
    attempts of its post, and the cadence carries the zone's UTC offsets. */
module RunLoop {
  import opened Wrappers
  import opened Dicts
  import FieldMap
  import Averaging
  import LineProtocol
  import PostQueue

  /** The oracle for one iteration of the sample loop. Times are whole
      seconds as unbounded integers; the range limits of `datetime` and
      `time.sleep` are not modelled. */
  datatype Tick = Tick(now: int, fetched: Option<map<string, real>>)

  /** Samples per window, seconds between samples, and the host's time zone:
      `utcOffsetAt(t)` is the offset from UTC, in seconds, that `.timestamp()`
      subtracts from the naive local wall-clock second `t`. It is an oracle,
      so daylight-saving switches, and the choice made for repeated or
      skipped wall-clock times, are whatever the zone says. */
  datatype Cadence = Cadence(numSamples: nat, periodSec: nat, utcOffsetAt: int -> int)

  /** `max(0, next_sample_time - now)`: how long to sleep before sampling.
      Never negative, so the "sampling slipped" branch cannot be taken. */
  function SleepTime(next: int, now: int): (s: int)
    ensures s >= 0
    ensures s >= next - now
    ensures s == 0 || s == next - now
  {
    if next - now > 0 then next - now else 0
  }

  /** State of the sample loop within one window: the target time of the next
      sample, the converted readings so far, and how often the loop took the
      slip branch (which resets the target to `now`). */
  datatype Collecting = Collecting(next: int, samples: seq<Dict<real>>, slips: nat)

  /** One iteration of the sample loop, with its branches as written: sleep
      when the sleep time is positive, reset the target when it is negative,
      fetch and convert, then advance the target by one period. */
  function SampleStep(period: nat, st: Collecting, t: Tick): Collecting
  {
    var sleep := SleepTime(st.next, t.now);
    var slipped := !(sleep > 0) && sleep < 0;
    var next := if slipped then t.now else st.next;
    var samples := match t.fetched
      case Some(raw) => st.samples + [FieldMap.ConvertData(raw)]
      case None => st.samples;
    Collecting(next + period, samples, st.slips + (if slipped then 1 else 0))
  }

  /** The sample loop over the ticks of one window. */
  function Collect(period: nat, st: Collecting, ticks: seq<Tick>): Collecting
    decreases |ticks|
  {
    if |ticks| == 0 then st
    else Collect(period, SampleStep(period, st, ticks[0]), ticks[1..])
  }

  /** The readings of the successful fetches, in fetch order. */
  function Fetched(ticks: seq<Tick>): (raws: seq<map<string, real>>)
    ensures |raws| <= |ticks|
  {
    if |ticks| == 0 then []
    else
      match ticks[0].fetched
      case Some(raw) => [raw] + Fetched(ticks[1..])
      case None => Fetched(ticks[1..])
  }

  /** Some reading was fetched exactly when some fetch succeeded. */
  lemma {:induction false} FetchedNonEmpty(ticks: seq<Tick>)
    ensures |Fetched(ticks)| > 0 <==> exists i :: 0 <= i < |ticks| && ticks[i].fetched.Some?
    decreases |ticks|
  {
    if |ticks| > 0 {
      FetchedNonEmpty(ticks[1..]);
      if ticks[0].fetched.None? && exists i :: 0 <= i < |ticks| && ticks[i].fetched.Some? {
        var i :| 0 <= i < |ticks| && ticks[i].fetched.Some?;
        assert ticks[1..][i - 1] == ticks[i];
      }
    }
  }

  /** The converted form of each reading, in order. */
  function ConvertAll(raws: seq<map<string, real>>): (rs: seq<Dict<real>>)
    ensures |rs| == |raws|
  {
    if |raws| == 0 then [] else [FieldMap.ConvertData(raws[0])] + ConvertAll(raws[1..])
  }

  /** `(n + 1) * p` unfolded, for the per-sample and per-window advances. */
  lemma MulSucc(n: nat, p: int)
    ensures (n + 1) * p == n * p + p
  {
  }

  /** One iteration never takes the slip branch and advances the target by
      exactly one period; it appends the converted reading when the fetch
      succeeded. */
  lemma SampleStepSpec(period: nat, st: Collecting, t: Tick)
    ensures var r := SampleStep(period, st, t);
      && r.next == st.next + period
      && r.slips == st.slips
      && r.samples == match t.fetched
           case Some(raw) => st.samples + [FieldMap.ConvertData(raw)]
           case None => st.samples
  {
  }

  /** Over a window's ticks the target time advances by exactly one period
      per sample and is never reset: the slip branch is never taken. */
  lemma {:induction false} CollectCadence(period: nat, st: Collecting, ticks: seq<Tick>)
    ensures Collect(period, st, ticks).next == st.next + |ticks| * period
    ensures Collect(period, st, ticks).slips == st.slips
    decreases |ticks|
  {
    if |ticks| > 0 {
      var s1 := SampleStep(period, st, ticks[0]);
      SampleStepSpec(period, st, ticks[0]);
      CollectCadence(period, s1, ticks[1..]);
      MulSucc(|ticks| - 1, period);
    }
  }

  /** The converted form of what one tick fetched: one reading or none. */
  function TickSamples(t: Tick): seq<Dict<real>>
  {
    match t.fetched
    case Some(raw) => [FieldMap.ConvertData(raw)]
    case None => []
  }

  lemma ConvertAllFetchedCons(ticks: seq<Tick>)
    requires |ticks| > 0
    ensures ConvertAll(Fetched(ticks)) == TickSamples(ticks[0]) + ConvertAll(Fetched(ticks[1..]))
  {
    var rest := Fetched(ticks[1..]);
    match ticks[0].fetched
    case Some(raw) =>
      assert Fetched(ticks) == [raw] + rest;
      ConvertAllPrepend(raw, rest);
    case None =>
      assert Fetched(ticks) == rest;
  }

  lemma ConvertAllPrepend(raw: map<string, real>, rest: seq<map<string, real>>)
    ensures ConvertAll([raw] + rest) == [FieldMap.ConvertData(raw)] + ConvertAll(rest)
  {
    assert ([raw] + rest)[1..] == rest;
  }

  /** The readings a window collects are the converted successful fetches,
      in fetch order. */
  lemma {:induction false} CollectSamples(period: nat, st: Collecting, ticks: seq<Tick>)
    ensures Collect(period, st, ticks).samples == st.samples + ConvertAll(Fetched(ticks))
    decreases |ticks|
  {
    if |ticks| == 0 {
      assert st.samples + [] == st.samples;
    } else {
      var t := ticks[0];
      var more := ticks[1..];
      var s1 := SampleStep(period, st, t);
      CollectSamples(period, s1, more);
      ConvertAllFetchedCons(ticks);
      AppendAssoc(st.samples, TickSamples(t), ConvertAll(Fetched(more)));
    }
  }

  lemma AppendAssoc<T>(a: seq<T>, b: seq<T>, c: seq<T>)
    ensures (a + b) + c == a + (b + c)
  {
  }

  /** `int()` of `x / 2` seconds: the half, truncated toward zero. */
  function TruncHalf(x: int): (r: int)
    ensures x >= 0 ==> 2 * r <= x <= 2 * r + 1
    ensures x < 0 ==> 2 * r - 1 <= x <= 2 * r
  {
    if x >= 0 then x / 2 else -((-x) / 2)
  }

  /** `int(window_center_time.timestamp())`. The naive centre is the window
      start plus half the window length; `.timestamp()` reads it as local time
      and subtracts the zone's UTC offset at that wall-clock second, and
      `int()` truncates the possibly half-second result toward zero. */
  function CenterTimestamp(start: int, c: Cadence): (ts: int)
    ensures var utc2 := 2 * start + c.periodSec * c.numSamples
                        - 2 * c.utcOffsetAt((2 * start + c.periodSec * c.numSamples) / 2);
      && (utc2 >= 0 ==> 2 * ts <= utc2 <= 2 * ts + 1)
      && (utc2 < 0 ==> 2 * ts - 1 <= utc2 <= 2 * ts)
  {
    var centre2 := 2 * start + c.periodSec * c.numSamples;
    TruncHalf(centre2 - 2 * c.utcOffsetAt(centre2 / 2))
  }

  /** With an even window length the centre is a whole second, so two
      windows' stamps lie apart by the distance between their starts less
      the change in the zone's offset: across a daylight-saving switch the
      stamps move by the switch, while the naive schedule does not. */
  lemma StampSpacing(c: Cadence, s1: int, s2: int)
    requires (c.periodSec * c.numSamples) % 2 == 0
    ensures var half := c.periodSec * c.numSamples / 2;
      CenterTimestamp(s2, c) - CenterTimestamp(s1, c)
        == (s2 - s1) - (c.utcOffsetAt(s2 + half) - c.utcOffsetAt(s1 + half))
  {
    var len := c.periodSec * c.numSamples;
    var half := len / 2;
    assert len == 2 * half;
    assert (2 * s1 + len) / 2 == s1 + half;
    assert (2 * s2 + len) / 2 == s2 + half;
  }

  /** An averaged window ready for `post_influx`. */
  datatype Post = Post(timestamp: int, metrics: Dict<real>)

  datatype WindowResult = WindowResult(next: int, post: Option<Post>)

  /** One window of `run`: collect `numSamples` samples starting at target
      time `start`, then average and post them if any fetch succeeded. The
      next window starts exactly one window length later. */
  function RunWindow(c: Cadence, start: int, ticks: seq<Tick>): (r: WindowResult)
    requires |ticks| == c.numSamples
    ensures r.next == start + c.numSamples * c.periodSec
  {
    var s := Collect(c.periodSec, Collecting(start, [], 0), ticks);
    CollectCadence(c.periodSec, Collecting(start, [], 0), ticks);
    if |s.samples| > 0 then
      WindowResult(s.next, Some(Post(CenterTimestamp(start, c), Averaging.AverageSamples(s.samples))))
    else
      WindowResult(s.next, None)
  }

  /** A window posts exactly when some fetch succeeded; the post is stamped
      with the window's centre and carries the average of the converted
      successful fetches, so its metric set is the key set of the first
      successful reading. */
  lemma WindowPost(c: Cadence, start: int, ticks: seq<Tick>)
    requires |ticks| == c.numSamples
    ensures var r := RunWindow(c, start, ticks);
      && (r.post.Some? <==> exists i :: 0 <= i < |ticks| && ticks[i].fetched.Some?)
      && (r.post.Some? ==>
           && |Fetched(ticks)| > 0
           && r.post.value.timestamp == CenterTimestamp(start, c)
           && r.post.value.metrics == Averaging.AverageSamples(ConvertAll(Fetched(ticks)))
           && Keys(r.post.value.metrics) == Keys(FieldMap.ConvertData(Fetched(ticks)[0])))
  {
    CollectSamples(c.periodSec, Collecting(start, [], 0), ticks);
    assert [] + ConvertAll(Fetched(ticks)) == ConvertAll(Fetched(ticks));
    FetchedNonEmpty(ticks);
  }

  /** The windows of a run: where the next window would start, and what each
      window posted. */
  datatype Windows = Windows(next: int, posts: seq<Option<Post>>)

  predicate WellSized(c: Cadence, windows: seq<seq<Tick>>)
  {
    forall k :: 0 <= k < |windows| ==> |windows[k]| == c.numSamples
  }

  function RunWindows(c: Cadence, start: int, windows: seq<seq<Tick>>): (r: Windows)
    requires WellSized(c, windows)
    ensures |r.posts| == |windows|
    decreases |windows|
  {
    if |windows| == 0 then Windows(start, [])
    else
      var w := RunWindow(c, start, windows[0]);
      var rest := RunWindows(c, w.next, windows[1..]);
      Windows(rest.next, [w.post] + rest.posts)
  }

  /** A run of windows ends where the last window's successor would start,
      `t0 + |windows| * N * period`. */
  lemma {:induction false} RunWindowsAdvance(c: Cadence, t0: int, windows: seq<seq<Tick>>)
    requires WellSized(c, windows)
    ensures RunWindows(c, t0, windows).next == t0 + |windows| * (c.numSamples * c.periodSec)
    decreases |windows|
  {
    if |windows| > 0 {
      var len := c.numSamples * c.periodSec;
      var next := RunWindow(c, t0, windows[0]).next;
      RunWindowsAdvance(c, next, windows[1..]);
      MulSucc(|windows| - 1, len);
    }
  }

  /** Window `k` of a run started at `t0` starts at `t0 + k * N * period`: the
      target time is never reset, so the schedule does not drift with late
      wake-ups or slow fetches. */
  lemma {:induction false} WindowSchedule(c: Cadence, t0: int, windows: seq<seq<Tick>>, k: nat)
    requires WellSized(c, windows)
    requires k < |windows|
    ensures RunWindows(c, t0, windows).posts[k] == RunWindow(c, WindowStart(c, t0, k), windows[k]).post
    decreases k
  {
    WellSizedTail(c, windows);
    var next := RunWindow(c, t0, windows[0]).next;
    if k == 0 {
      StartOfFirst(c, t0);
    } else {
      WindowSchedule(c, next, windows[1..], k - 1);
      StartOfLater(c, t0, k, next);
      WindowScheduleStep(c, t0, windows, k, WindowStart(c, next, k - 1), WindowStart(c, t0, k));
    }
  }

  /** The target time at which window `k` starts when the first starts at
      `t0`: every window lasts `numSamples` periods. */
  function WindowStart(c: Cadence, t0: int, k: nat): int
  {
    t0 + k * (c.numSamples * c.periodSec)
  }

  lemma WellSizedTail(c: Cadence, windows: seq<seq<Tick>>)
    requires WellSized(c, windows) && |windows| > 0
    ensures |windows[0]| == c.numSamples && WellSized(c, windows[1..])
  {
  }

  lemma StartOfFirst(c: Cadence, t0: int)
    ensures WindowStart(c, t0, 0) == t0
  {
  }

  /** Window `k` starts where window `k - 1` of the windows after the first
      starts. */
  lemma StartOfLater(c: Cadence, t0: int, k: nat, next: int)
    requires k > 0 && next == t0 + c.numSamples * c.periodSec
    ensures WindowStart(c, next, k - 1) == WindowStart(c, t0, k)
  {
    MulSucc(k - 1, c.numSamples * c.periodSec);
  }

  lemma WindowScheduleStep(c: Cadence, t0: int, windows: seq<seq<Tick>>, k: nat, prev: int, at: int)
    requires WellSized(c, windows)
    requires 0 < k < |windows|
    requires prev == at
    requires RunWindows(c, RunWindow(c, t0, windows[0]).next, windows[1..]).posts[k - 1]
          == RunWindow(c, prev, windows[1..][k - 1]).post
    ensures RunWindows(c, t0, windows).posts[k] == RunWindow(c, at, windows[k]).post
  {
    assert windows[1..][k - 1] == windows[k];
  }

  /** `f"{k}={v}"` needs each value as text; `render` stands for `str()` of a
      float. */
  function Render(metrics: Dict<real>, render: real -> string): (fields: seq<(string, string)>)
    ensures |fields| == |metrics|
    ensures forall i :: 0 <= i < |metrics| ==> fields[i] == (metrics[i].0, render(metrics[i].1))
  {
    seq(|metrics|, i requires 0 <= i < |metrics| => (metrics[i].0, render(metrics[i].1)))
  }

  function PayloadOf(location: string, p: Post, render: real -> string): string
  {
    LineProtocol.Payload(location, p.timestamp, Render(p.metrics, render))
  }

  /** The oracles for one window: its ticks, and the outcomes of the send
      attempts made if it posts. */
  datatype WindowInput = WindowInput(ticks: seq<Tick>, sends: seq<bool>)

  /** The loop state between windows: the next target time, the post queue,
      and everything sent so far. */
  datatype LoopState = LoopState(next: int, queue: seq<string>, sent: seq<string>)

  predicate InputsSized(c: Cadence, inputs: seq<WindowInput>)
  {
    forall k :: 0 <= k < |inputs| ==> |inputs[k].ticks| == c.numSamples
  }

  /** One pass of the outer `while True` loop: a window, then `post_influx`
      of its payload when it produced one. A failed drain pass raises inside
      `post_influx`; `run` catches it, keeping whatever the pass popped. */
  function LoopWindow(policy: PostQueue.Policy, c: Cadence, location: string, render: real -> string,
                      st: LoopState, input: WindowInput): (r: LoopState)
    requires |input.ticks| == c.numSamples
    ensures r.next == st.next + c.numSamples * c.periodSec
  {
    var w := RunWindow(c, st.next, input.ticks);
    match w.post
    case None => LoopState(w.next, st.queue, st.sent)
    case Some(p) =>
      var d := PostQueue.PostInflux(policy, st.queue, PayloadOf(location, p, render), input.sends);
      LoopState(w.next, d.queue, st.sent + d.sent)
  }

  function Loop(policy: PostQueue.Policy, c: Cadence, location: string, render: real -> string,
                st: LoopState, inputs: seq<WindowInput>): LoopState
    requires InputsSized(c, inputs)
    decreases |inputs|
  {
    if |inputs| == 0 then st
    else Loop(policy, c, location, render, LoopWindow(policy, c, location, render, st, inputs[0]), inputs[1..])
  }

  /** The `post_influx` calls a run makes: one per window that produced a
      post, in window order, with that window's send outcomes. */
  function Attempts(c: Cadence, location: string, render: real -> string, start: int,
                    inputs: seq<WindowInput>): seq<PostQueue.Attempt>
    requires InputsSized(c, inputs)
    decreases |inputs|
  {
    if |inputs| == 0 then []
    else
      var w := RunWindow(c, start, inputs[0].ticks);
      var rest := Attempts(c, location, render, w.next, inputs[1..]);
      match w.post
      case None => rest
      case Some(p) => [PostQueue.Attempt(PayloadOf(location, p, render), inputs[0].sends)] + rest
  }

  /** The queue side of the loop is the relay of the loop's `post_influx`
      calls: the loop's queue and sends are those of `Relay` over them. */
  lemma {:induction false} LoopIsRelay(policy: PostQueue.Policy, c: Cadence, location: string,
                                       render: real -> string, st: LoopState, inputs: seq<WindowInput>)
    requires InputsSized(c, inputs)
    ensures var r := Loop(policy, c, location, render, st, inputs);
      var rel := PostQueue.Relay(policy, st.queue, Attempts(c, location, render, st.next, inputs));
      r.queue == rel.queue && r.sent == st.sent + rel.sent
    decreases |inputs|
  {
    if |inputs| > 0 {
      var st1 := LoopWindow(policy, c, location, render, st, inputs[0]);
      LoopIsRelay(policy, c, location, render, st1, inputs[1..]);
      LoopIsRelayStep(policy, c, location, render, st, inputs);
    }
  }

  /** One window of the loop is one (or no) step of the relay. */
  lemma LoopIsRelayStep(policy: PostQueue.Policy, c: Cadence, location: string,
                        render: real -> string, st: LoopState, inputs: seq<WindowInput>)
    requires InputsSized(c, inputs) && |inputs| > 0
    requires var st1 := LoopWindow(policy, c, location, render, st, inputs[0]);
      var r := Loop(policy, c, location, render, st1, inputs[1..]);
      var rel := PostQueue.Relay(policy, st1.queue, Attempts(c, location, render, st1.next, inputs[1..]));
      r.queue == rel.queue && r.sent == st1.sent + rel.sent
    ensures var r := Loop(policy, c, location, render, st, inputs);
      var rel := PostQueue.Relay(policy, st.queue, Attempts(c, location, render, st.next, inputs));
      r.queue == rel.queue && r.sent == st.sent + rel.sent
  {
    var w := RunWindow(c, st.next, inputs[0].ticks);
    var later := Attempts(c, location, render, w.next, inputs[1..]);
    match w.post
    case None =>
      assert Attempts(c, location, render, st.next, inputs) == later;
    case Some(p) =>
      var a := PostQueue.Attempt(PayloadOf(location, p, render), inputs[0].sends);
      assert Attempts(c, location, render, st.next, inputs) == [a] + later;
      PostQueue.RelayCons(policy, st.queue, a, later);
      var d := PostQueue.PostInflux(policy, st.queue, a.rec, a.outcomes);
      AppendAssoc(st.sent, d.sent, PostQueue.Relay(policy, d.queue, later).sent);
  }

  /** The consequence of the `post_influx` defect for a whole run: the queue
      starts empty, stays empty, and no record is ever sent to InfluxDB,
      whatever the sensor and the network do. */
  lemma RunAsWrittenNeverSends(c: Cadence, location: string, render: real -> string, t0: int,
                               inputs: seq<WindowInput>)
    requires InputsSized(c, inputs)
    ensures Loop(PostQueue.AsWritten, c, location, render, LoopState(t0, [], []), inputs)
         == LoopState(t0 + |inputs| * (c.numSamples * c.periodSec), [], [])
  {
    LoopIsRelay(PostQueue.AsWritten, c, location, render, LoopState(t0, [], []), inputs);
    PostQueue.AsWrittenNeverSends([], Attempts(c, location, render, t0, inputs));
    LoopAdvances(PostQueue.AsWritten, c, location, render, LoopState(t0, [], []), inputs);
  }

  lemma {:induction false} LoopAdvances(policy: PostQueue.Policy, c: Cadence, location: string,
                                        render: real -> string, st: LoopState, inputs: seq<WindowInput>)
    requires InputsSized(c, inputs)
    ensures Loop(policy, c, location, render, st, inputs).next
         == st.next + |inputs| * (c.numSamples * c.periodSec)
    decreases |inputs|
  {
    if |inputs| > 0 {
      var len := c.numSamples * c.periodSec;
      var st1 := LoopWindow(policy, c, location, render, st, inputs[0]);
      LoopAdvances(policy, c, location, render, st1, inputs[1..]);
      MulSucc(|inputs| - 1, len);
    }
  }

  /** With the corrected `post_influx`, a run from the empty queue never
      holds more than `POST_QUEUE_LIMIT` records, and while fewer records
      than that have been posted, the records sent followed by those still
      queued are exactly the run's payloads in window order. */
  lemma RunIntendedRelaysInOrder(c: Cadence, location: string, render: real -> string, t0: int,
                                 inputs: seq<WindowInput>)
    requires InputsSized(c, inputs)
    ensures var r := Loop(PostQueue.Intended, c, location, render, LoopState(t0, [], []), inputs);
      var atts := Attempts(c, location, render, t0, inputs);
      && |r.queue| <= PostQueue.PostQueueLimit
      && (|atts| <= PostQueue.PostQueueLimit ==> r.sent + r.queue == PostQueue.Records(atts))
  {
    var atts := Attempts(c, location, render, t0, inputs);
    LoopIsRelay(PostQueue.Intended, c, location, render, LoopState(t0, [], []), inputs);
    PostQueue.IntendedStaysBounded([], atts);
    var rel := PostQueue.Relay(PostQueue.Intended, [], atts);
    assert [] + rel.sent == rel.sent;
    if |atts| <= PostQueue.PostQueueLimit {
      PostQueue.IntendedKeepsOrder([], atts);
      assert [] + PostQueue.Records(atts) == PostQueue.Records(atts);
    }
  }

  /** The tick lists of the windows, in order. */
  function TicksOf(inputs: seq<WindowInput>): (windows: seq<seq<Tick>>)
    ensures |windows| == |inputs|
    ensures forall k :: 0 <= k < |inputs| ==> windows[k] == inputs[k].ticks
  {
    seq(|inputs|, k requires 0 <= k < |inputs| => inputs[k].ticks)
  }

  /** The payloads of the windows that post, in window order. */
  function PostedPayloads(location: string, render: real -> string, posts: seq<Option<Post>>): seq<string>
    decreases |posts|
  {
    if |posts| == 0 then []
    else
      var rest := PostedPayloads(location, render, posts[1..]);
      match posts[0]
      case None => rest
      case Some(p) => [PayloadOf(location, p, render)] + rest
  }

  /** The records the loop hands to `post_influx` are the payloads of the
      posting windows of the window chain, so `WindowSchedule` describes the
      windows the loop posts. */
  lemma {:induction false} AttemptsFollowWindows(c: Cadence, location: string, render: real -> string,
                                                 start: int, inputs: seq<WindowInput>)
    requires InputsSized(c, inputs)
    ensures WellSized(c, TicksOf(inputs))
    ensures PostQueue.Records(Attempts(c, location, render, start, inputs))
         == PostedPayloads(location, render, RunWindows(c, start, TicksOf(inputs)).posts)
    decreases |inputs|
  {
    var ws := TicksOf(inputs);
    if |inputs| > 0 {
      var w := RunWindow(c, start, inputs[0].ticks);
      AttemptsFollowWindows(c, location, render, w.next, inputs[1..]);
      assert TicksOf(inputs[1..]) == ws[1..];
      AttemptsFollowWindowsStep(c, location, render, start, inputs, w);
      assert WellSized(c, ws);
    }
  }

  /** The payload one window contributes, if it posts. */
  function PostedBy(location: string, render: real -> string, post: Option<Post>): seq<string>
  {
    match post
    case None => []
    case Some(p) => [PayloadOf(location, p, render)]
  }

  /** The first window contributes the same record to both sides. */
  lemma AttemptsFollowWindowsStep(c: Cadence, location: string, render: real -> string,
                                  start: int, inputs: seq<WindowInput>, w: WindowResult)
    requires InputsSized(c, inputs) && |inputs| > 0
    requires WellSized(c, TicksOf(inputs))
    requires w == RunWindow(c, start, inputs[0].ticks)
    ensures PostQueue.Records(Attempts(c, location, render, start, inputs))
         == PostedBy(location, render, w.post) + PostQueue.Records(Attempts(c, location, render, w.next, inputs[1..]))
    ensures PostedPayloads(location, render, RunWindows(c, start, TicksOf(inputs)).posts)
         == PostedBy(location, render, w.post) + PostedPayloads(location, render, RunWindows(c, w.next, TicksOf(inputs)[1..]).posts)
  {
    var ws := TicksOf(inputs);
    var rest := RunWindows(c, w.next, ws[1..]);
    assert RunWindows(c, start, ws).posts == [w.post] + rest.posts;
    assert ([w.post] + rest.posts)[1..] == rest.posts;
    var later := Attempts(c, location, render, w.next, inputs[1..]);
    match w.post
    case None =>
    case Some(p) =>
      var a := PostQueue.Attempt(PayloadOf(location, p, render), inputs[0].sends);
      PostQueue.RecordsCons([a] + later);
      assert ([a] + later)[1..] == later;
  }
}

=== FILE: strings.dfy ===
/** Character-level string helpers with the semantics of the Python built-ins
    the relay uses: `str.split` and `str.join` with a one-character separator,
    `str.isdigit` restricted to ASCII digits, `int()` of a digit string and
    `str()` of an integer. */
module Strings {

  /** `sep.join(parts)`: the parts with one separator between neighbours. */
  function Join(parts: seq<string>, sep: char): string
  {
    if |parts| == 0 then ""
    else if |parts| == 1 then parts[0]
    else parts[0] + [sep] + Join(parts[1..], sep)
  }

  /** `s.split(sep)`: the maximal separator-free pieces of `s`, in order.
      There is always at least one piece, and splitting then joining gives
      back the original string. */
  function Split(s: string, sep: char): (parts: seq<string>)
    ensures |parts| >= 1
    ensures forall i :: 0 <= i < |parts| ==> sep !in parts[i]
    ensures Join(parts, sep) == s
    decreases |s|
  {
    if |s| == 0 then [""]
    else
      var rest := Split(s[1..], sep);
      if s[0] == sep then
        [""] + rest
      else
        assert [s[0]] + rest[0] + Join(rest, sep)[|rest[0]|..] == s by {
          JoinHead(rest, sep);
        }
        [[s[0]] + rest[0]] + rest[1..]
  }

  /** Joining is determined by the first piece followed by the join of the rest. */
  lemma {:induction false} JoinHead(parts: seq<string>, sep: char)
    requires |parts| >= 1
    ensures |Join(parts, sep)| >= |parts[0]|
    ensures Join(parts, sep)[..|parts[0]|] == parts[0]
    ensures |parts| == 1 ==> Join(parts, sep) == parts[0]
    ensures |parts| >= 2 ==>
      Join(parts, sep)[|parts[0]|..] == [sep] + Join(parts[1..], sep)
    ensures Join([parts[0]] + parts[1..], sep) == Join(parts, sep)
  {
    assert [parts[0]] + parts[1..] == parts;
  }

  /** A string with no separator in it splits into itself alone. */
  lemma {:induction false} SplitNoSeparator(s: string, sep: char)
    requires sep !in s
    ensures Split(s, sep) == [s]
    decreases |s|
  {
    if |s| > 0 {
      assert sep !in s[1..];
      SplitNoSeparator(s[1..], sep);
    }
  }

  /** Splitting `a + sep + b` where `a` has no separator yields `a` and then the
      pieces of `b`. */
  lemma {:induction false} SplitAfterSeparator(a: string, b: string, sep: char)
    requires sep !in a
    ensures Split(a + [sep] + b, sep) == [a] + Split(b, sep)
    decreases |a|
  {
    var s := a + [sep] + b;
    if |a| == 0 {
      assert s == [sep] + b;
      assert s[1..] == b;
    } else {
      assert s[0] == a[0];
      assert s[1..] == a[1..] + [sep] + b;
      assert sep !in a[1..];
      SplitAfterSeparator(a[1..], b, sep);
      assert [a[0]] + a[1..] == a;
    }
  }

  /** A character in no piece and different from the separator is not in the join. */
  lemma {:induction false} JoinAvoids(parts: seq<string>, sep: char, c: char)
    requires c != sep
    requires forall i :: 0 <= i < |parts| ==> c !in parts[i]
    ensures c !in Join(parts, sep)
    decreases |parts|
  {
    if |parts| > 1 {
      JoinAvoids(parts[1..], sep, c);
    }
  }

  /** Split inverts Join when no piece contains the separator. */
  lemma {:induction false} SplitJoin(parts: seq<string>, sep: char)
    requires |parts| >= 1
    requires forall i :: 0 <= i < |parts| ==> sep !in parts[i]
    ensures Split(Join(parts, sep), sep) == parts
    decreases |parts|
  {
    if |parts| == 1 {
      SplitNoSeparator(parts[0], sep);
    } else {
      assert Join(parts, sep) == parts[0] + [sep] + Join(parts[1..], sep);
      SplitAfterSeparator(parts[0], Join(parts[1..], sep), sep);
      SplitJoin(parts[1..], sep);
      assert [parts[0]] + parts[1..] == parts;
    }
  }

  /** `s.startswith(prefix)`. */
  predicate StartsWith(s: string, prefix: string)
  {
    |prefix| <= |s| && s[..|prefix|] == prefix
  }

  predicate IsDigit(c: char)
  {
    '0' <= c <= '9'
  }

  /** `s.isdigit()` over ASCII: non-empty and made of decimal digits only. */
  predicate IsDigits(s: string)
  {
    |s| > 0 && forall i :: 0 <= i < |s| ==> IsDigit(s[i])
  }

  function DigitValue(c: char): nat
    requires IsDigit(c)
  {
    (c as int - '0' as int) as nat
  }

  function DigitChar(d: nat): (c: char)
    requires d < 10
    ensures IsDigit(c) && DigitValue(c) == d
  {
    ('0' as int + d) as char
  }

  /** The value of a string of decimal digits, read most significant first
      (`int(s)` for a string that passed `isdigit`; leading zeros allowed). */
  function DigitsValue(s: string): nat
    requires forall i :: 0 <= i < |s| ==> IsDigit(s[i])
    decreases |s|
  {
    if |s| == 0 then 0
    else DigitsValue(s[..|s| - 1]) * 10 + DigitValue(s[|s| - 1])
  }

  /** `str(n)` for a natural number: shortest decimal form, no leading zero. */
  function NatToString(n: nat): (s: string)
    ensures IsDigits(s)
    ensures s[0] != '0' || n == 0
    decreases n
  {
    if n < 10 then [DigitChar(n)]
    else NatToString(n / 10) + [DigitChar(n % 10)]
  }

  /** `str(i)` for an integer: a minus sign in front of negative values. */
  function IntToString(i: int): string
  {
    if i < 0 then "-" + NatToString(-i) else NatToString(i)
  }

  /** An optionally signed decimal numeral, as produced by `str(int)`. */
  predicate IsIntString(s: string)
  {
    if |s| > 0 && s[0] == '-' then IsDigits(s[1..]) else IsDigits(s)
  }

  /** `int(s)` for an optionally signed decimal numeral. */
  function ParseInt(s: string): int
    requires IsIntString(s)
  {
    if |s| > 0 && s[0] == '-' then -(DigitsValue(s[1..]) as int) else DigitsValue(s)
  }

  /** Reading back the decimal form of a number gives the number. */
  lemma {:induction false} NatToStringRoundTrip(n: nat)
    ensures DigitsValue(NatToString(n)) == n
    decreases n
  {
    var s := NatToString(n);
    if n >= 10 {
      NatToStringRoundTrip(n / 10);
      assert s[..|s| - 1] == NatToString(n / 10);
    }
  }

  function Zeros(k: nat): (s: string)
    ensures |s| == k
    ensures forall i :: 0 <= i < k ==> s[i] == '0'
  {
    if k == 0 then "" else Zeros(k - 1) + "0"
  }

  function Pow10(k: nat): nat
  {
    if k == 0 then 1 else 10 * Pow10(k - 1)
  }

  /** Appending `k` zero digits multiplies the value by ten to the `k`. */
  lemma {:induction false} AppendZeros(s: string, k: nat)
    requires forall i :: 0 <= i < |s| ==> IsDigit(s[i])
    ensures forall i :: 0 <= i < |s + Zeros(k)| ==> IsDigit((s + Zeros(k))[i])
    ensures DigitsValue(s + Zeros(k)) == DigitsValue(s) * Pow10(k)
    decreases k
  {
    if k == 0 {
      assert s + Zeros(k) == s;
    } else {
      var u := s + Zeros(k - 1);
      AppendZeros(s, k - 1);
      AppendZero(u);
      var t := s + Zeros(k);
      assert t == u + "0";
      ScaleByTen(DigitsValue(t), DigitsValue(u), DigitsValue(s), Pow10(k - 1), Pow10(k));
    }
  }

  /** Appending one zero digit multiplies the value by ten. */
  lemma AppendZero(u: string)
    requires forall i :: 0 <= i < |u| ==> IsDigit(u[i])
    ensures forall i :: 0 <= i < |u + "0"| ==> IsDigit((u + "0")[i])
    ensures DigitsValue(u + "0") == DigitsValue(u) * 10
  {
    var t := u + "0";
    assert t[..|t| - 1] == u;
  }

  lemma ScaleByTen(vt: nat, vu: nat, x: nat, p: nat, p10: nat)
    requires vu == x * p && vt == vu * 10 && p10 == 10 * p
    ensures vt == x * p10
  {
  }

  /** `str(ts) + "000000000"` reads back as the timestamp scaled to nanoseconds. */
  lemma NanosRoundTrip(ts: int)
    ensures IsIntString(IntToString(ts) + Zeros(9))
    ensures ParseInt(IntToString(ts) + Zeros(9)) == ts * 1000000000
  {
    var m: nat := if ts < 0 then -ts else ts;
    var d := NatToString(m);
    NatToStringRoundTrip(m);
    AppendZeros(d, 9);
    Pow10Nine();
    ScaledDigits(d, m);
    if ts < 0 {
      SignedText(ts, d, m);
    } else {
      assert d[0] != '-';
      assert IntToString(ts) + Zeros(9) == d + Zeros(9);
    }
  }

  lemma Pow10Nine()
    ensures Pow10(9) == 1000000000
  {
  }

  /** The digits of `m` followed by nine zeros spell `m * 10^9`. */
  lemma ScaledDigits(d: string, m: nat)
    requires IsDigits(d) && DigitsValue(d) == m
    requires forall i :: 0 <= i < |d + Zeros(9)| ==> IsDigit((d + Zeros(9))[i])
    requires DigitsValue(d + Zeros(9)) == DigitsValue(d) * Pow10(9)
    requires Pow10(9) == 1000000000
    ensures IsDigits(d + Zeros(9)) && DigitsValue(d + Zeros(9)) == m * 1000000000
  {
  }

  lemma SignedText(ts: int, d: string, m: nat)
    requires ts < 0 && m == -ts && d == NatToString(m)
    requires IsDigits(d + Zeros(9)) && DigitsValue(d + Zeros(9)) == m * 1000000000
    ensures IsIntString(IntToString(ts) + Zeros(9))
    ensures ParseInt(IntToString(ts) + Zeros(9)) == ts * 1000000000
  {
    var s := IntToString(ts) + Zeros(9);
    assert s == "-" + (d + Zeros(9));
    assert s[1..] == d + Zeros(9);
  }
}

=== FILE: wrappers.dfy ===
/** Failure-carrying result types shared by the relay model. */
module Wrappers {

  /** A value that may be absent: a missing dictionary entry, a failed fetch,
      an unset command-line field. */
  datatype Option<+T> = None | Some(value: T)

  /** The outcome of an operation that either produces a value or is rejected. */
  datatype Result<+R, +E> = Success(value: R) | Failure(error: E)
}
